=== FILE: README.md ===
# Urban Airship Cordova hooks: the config merge engine in Dafny

This project models the build hooks of a Cordova plugin wrapper:

- the configuration-merge engine in `hooks/utils.js`;
- the two hooks built on it, `skip_google_services_hook.js` and `google_services_cleanup.js`.

Everything is a pure function over immutable values. The proofs are about these functions.

The merge engine is code that nothing in the program reaches. `hooks/utils.js` exports only `getPlatformVersion`, `rmNonEmptyDir`, `getPlatformPath`, `getWwwPath` and `getPreference` (lines 344-350). Nothing in the file calls `updatePlatformConfig`, and the only caller of `parseConfigXml` is `updatePlatformConfig`. Its Android branch also calls `getAndroidManifestFilePath` (line 250), which is defined nowhere. The engine is modelled as written, as if it were called.

What is modelled, module by module:

- **`ConfigXml`** (`config.dfy`): `getPreferences` and `getPreference`.
  - The common `<preference>` elements come first, then the ones scoped to `<platform name=…>`.
  - Names are compared ignoring case, and the first match wins.
  - The result is the match's `value`, or its `default` when the value is missing or empty.
  - A preference without a `name` that the loop reaches throws a `TypeError`; here that is an `Err`.
- **`ConfigIndex`** (`index.dfy`): `getConfigFilesByTargetAndParent`.
  - Parent selectors are normalised.
  - Blocks are keyed `target|parent`, and the last block with a key wins.
  - The JavaScript object is an insertion-ordered association list (`assoc.dfy`).
- **`MergeItems`** (`items.dfy`): `parsePreferences`, `parseConfigFiles` and `parseConfigXml`, plus the routing of `updatePlatformConfig`.
  - The preference mapping table is never defined in `hooks/utils.js`, so it is a parameter here.
- **`XmlString`** (`xmlstring.dfy`): `eltreeToXmlString`.
  - A reader parses the output back; this proves that the output is a faithful encoding of the tags and texts it shows.
- **`AndroidManifest`** (`manifest.dfy`): the merge loop of `updateAndroidManifest`.
  - The tree is a value (`elements.dfy`). Nodes the JavaScript holds by reference are held as paths.
  - The elementtree `find` for item parents is a parameter, constrained only to return paths that exist.
  - The main-activity search and the child lookup are spelled out.
- **`IosPlist`** (`plist.dfy`): the merge loop of `updateIosPlist` and the rewrite of whitespace-only `<string>` elements.
  - `plist.parse` and `plist.build` are parameters.
- **`Platforms`** (`www.dfy`): `getPlatformVersion`, `getPlatformPath` and `getWwwPath`.
  - The version comparison uses JavaScript's string order.
- **`Hooks`** (`hooks.dfy`): the gradle line the skip hook appends and the cleanup hook's decision.
  - File-system effects are returned as values (`FileAppend`, `CleanupAction`).

Shared pieces:

- `wrappers.dfy`: `Option` and `Result`.
- `seqs.dfy`: generic facts about sequences used by the proofs.
- `jsstrings.dfy`: JavaScript's `trim`/`\s` whitespace, `toLowerCase` on ASCII, string comparison and `split`.

## Model

| member | source | states |
|---|---|---|
| `JsStrings.Trim` | hooks/utils.js:102-103 | `trim()` gives the slice left after whitespace-only margins; it is empty exactly when the text is all whitespace, and otherwise begins and ends with non-whitespace |
| `Assoc.FindPut` | hooks/utils.js:160 | assigning a property replaces the value under that key and leaves every other key's value as it was |
| `Assoc.Push` | hooks/utils.js:218-229 | appending to `configData[target]`, created empty when missing: the list under the key grows by exactly the pushed items, other keys keep their lists, keys stay distinct |
| `Elements.ChildrenWhereAppend` | hooks/utils.js:129-134 | the `findall` filter over two runs of children is the filter of the first run followed by that of the second, so document order and repetitions are kept |
| `Elements.ChildrenWhereOne` | hooks/utils.js:129-134 | a single child is kept exactly when it satisfies the selector step |
| `ConfigXml.ScopedChildren` | hooks/utils.js:134 | an element is in the result exactly when it has the wanted tag and is a child of a `<platform>` block whose `name` is the platform |
| `ConfigXml.ScopedChildrenAppend` | hooks/utils.js:134 | the matches over two runs of blocks are the first run's matches followed by the second's, so blocks keep document order |
| `ConfigXml.ScopedChildrenOne` | hooks/utils.js:134 | one block contributes its children with the wanted tag, in document order, when it is a block of the platform, and nothing otherwise |
| `ConfigXml.CommonPreferences` | hooks/utils.js:129 | exactly the top-level `<preference>` children |
| `ConfigXml.Preferences` | hooks/utils.js:126-140 | the common preferences form a prefix and the rest are platform-scoped; with an empty platform only the common ones are returned, for `common` the common list twice, otherwise the common list followed by the platform's `findall`, whose order the append lemmas above fix |
| `ConfigXml.Effective` | hooks/utils.js:81 | the result is `value` when present and non-empty, and `default` otherwise |
| `ConfigXml.GetPreference` | hooks/utils.js:76-85 | a throw happens exactly at the first nameless preference the loop reaches, with every earlier preference named and not matching; the first preference whose name matches decides the result; with every preference named and none matching the result is `undefined`; `CommonShadowsPlatform` adds the shadowing of platform preferences |
| `ConfigXml.ScanPreferences` | hooks/utils.js:79-84 | an error happens only at a nameless preference the loop reached (`NamelessThrows` gives the converse); a found value is the effective value of a matching preference, and every preference before it was named and did not match |
| `ConfigXml.NamelessThrows` | hooks/utils.js:79-81 | a nameless preference the loop reaches, with every earlier one named and not matching, makes the scan throw at that position |
| `ConfigXml.FirstMatchWins` | hooks/utils.js:79-83 | the first preference whose name matches decides the result: its `value` when that is present and non-empty, else its `default` |
| `ConfigXml.NoMatchIsUndefined` | hooks/utils.js:79-84 | when every preference is named and none matches, the result is `undefined` |
| `ConfigXml.ScanConcat` | hooks/utils.js:79-84 | scanning common followed by platform preferences: the common list decides unless the loop gets through all of it, and then the platform list decides |
| `ConfigXml.CommonShadowsPlatform` | hooks/utils.js:128-137 | a matching common preference shadows every same-named platform preference |
| `ConfigXml.CaseInsensitiveLookup` | hooks/utils.js:80 | two names equal up to letter case look up the same result |
| `ConfigIndex.NormalizeParent` | hooks/utils.js:153-157 | the parent becomes `./` exactly when it is missing, empty, `/*`, `*/` (or already `./`); otherwise it is kept verbatim |
| `ConfigIndex.IndexBlocks` | hooks/utils.js:151-161 | the index has distinct keys, each containing the separator (a vertical bar) |
| `ConfigIndex.ConfigFilesByTargetAndParent` | hooks/utils.js:146-164 | keys are distinct and come in the order in which they first occur among the platform's config-file blocks (`FirstKeys`), and under each key the object holds the last block with that key |
| `ConfigIndex.IndexHoldsLastBlock` | hooks/utils.js:151-161 | the block stored under a key is the last block with that key, and no key is stored that no block has |
| `ConfigIndex.FirstAt` | hooks/utils.js:151-161 | the position of the first block with a key: no earlier block has the key, the block there has it, or the position is the end when no block has it |
| `ConfigIndex.FirstKeys` | hooks/utils.js:151-161 | the block keys without repetitions, exactly the keys some block has, listed in the order in which they first occur |
| `ConfigIndex.IndexKeysInFirstOrder` | hooks/utils.js:151-161 | the index's keys are `FirstKeys`: a property assigned again keeps the place where it was first created |
| `ConfigIndex.DistinctBlocksInOrder` | hooks/utils.js:151-161 | two blocks with different keys are both kept, in block order |
| `ConfigIndex.OverwriteKeepsPlace` | hooks/utils.js:151-161 | blocks keyed A, B, A give keys A then B, with A holding the third block |
| `ConfigIndex.SecondBlockWins` | hooks/utils.js:160 | of two blocks with the same target and parent only the second survives, under the shared key |
| `ConfigIndex.KeySplitsBack` | hooks/utils.js:215-217 | splitting the key on the separator gives back the target and the normalised parent when neither contains it |
| `ConfigIndex.PipeInTargetTruncates` | hooks/utils.js:215-217 | a target containing the separator is read back cut at its first separator, a strict prefix of the target |
| `ConfigIndex.PipeInParentTruncates` | hooks/utils.js:215-217 | a parent containing the separator is read back cut at its first separator, a strict prefix of the parent |
| `MergeItems.PreferenceItemsFor` | hooks/utils.js:180-203 | every preference item for a target comes from a preference whose mapping rule names that target |
| `MergeItems.ParsePreferences` | hooks/utils.js:176-204 | appending the mapped preferences keeps the targets distinct; what it appends under each target is stated by `ParsePreferencesPerTarget` |
| `MergeItems.ParsePreferencesPerTarget` | hooks/utils.js:176-204 | under each target, `parsePreferences` appends exactly the mapped preferences for that target, in preference order, skipping unmapped ones |
| `MergeItems.ConfigFileItemsFor` | hooks/utils.js:220-227 | every config-file item is of kind config-file and its destination is its element's tag |
| `MergeItems.ParseConfigFiles` | hooks/utils.js:207-232 | appending the config-file items keeps the targets distinct; what it appends under each target is stated by `ParseConfigFilesPerTarget` |
| `MergeItems.ParseConfigFilesPerTarget` | hooks/utils.js:207-232 | under each target, `parseConfigFiles` appends one item per child of each indexed block for that target, in index and child order |
| `MergeItems.ParseConfigXml` | hooks/utils.js:167-173 | no target appears twice in the result |
| `MergeItems.ItemsPerTarget` | hooks/utils.js:167-173 | each target's list is its mapped preference items followed by its config-file items |
| `MergeItems.PreferencesBeforeConfigFiles` | hooks/utils.js:169-170 | within a target no preference item follows a config-file item |
| `MergeItems.RouteTarget` | hooks/utils.js:245-252 | a target goes to the manifest merge exactly for android and the name `AndroidManifest.xml`, and to the plist merge exactly for ios and a name containing `Info.plist` |
| `MergeItems.InfoPlistTargetsRouted` | hooks/utils.js:245 | any iOS target with `Info.plist` anywhere in its name, such as `<project>-Info.plist`, goes to the plist merge |
| `JsStrings.ContainsInfix` | hooks/utils.js:245 | `indexOf` finds a text in any text built around it |
| `MergeItems.ManifestRoutedOnce` | hooks/utils.js:239-252 | at most one target of a run is routed to the Android manifest merge |
| `XmlString.Serialise` | hooks/utils.js:98-112 | the output starts with the element's opening tag |
| `XmlString.AttributesNotWritten` | hooks/utils.js:97-112 | attributes, `_id` and tail never reach the output |
| `XmlString.TextHidesChildren` | hooks/utils.js:102-108 | with non-blank text the output is open tag, trimmed text, close tag, whatever the children are |
| `XmlString.SerialiseRenders` | hooks/utils.js:98-112 | the output is the rendering of the element's projection to tags and shown texts |
| `XmlString.SerialiseRoundTrip` | hooks/utils.js:98-112 | reading the output back gives the projection and leaves any following text untouched, for tags without `>` and texts without `<` |
| `XmlString.SerialiseInjective` | hooks/utils.js:98-112 | two such elements serialise alike exactly when their projections are equal |
| `AndroidManifest.MainActivity` | hooks/utils.js:257-261 | the main activity is the first `<activity>` with a MAIN intent filter inside the first `<application>` that has one; none exactly when no application has one |
| `AndroidManifest.ResolveParent` | hooks/utils.js:271-277 | the main-activity token resolves to the main activity; any resolved parent is a node of the tree |
| `AndroidManifest.MatchingChild` | hooks/utils.js:291-295 | the chosen child is the first one matching the item (same tag, and same `android:name` for `uses-permission`); none exactly when no child matches |
| `AndroidManifest.SetAttribute` | hooks/utils.js:288 | the destination attribute gets the value and nothing else of the node changes |
| `AndroidManifest.ApplyItem` | hooks/utils.js:269-316 | the main activity stays a node of the tree, and an item whose parent does not resolve changes nothing |
| `AndroidManifest.ApplyItems` | hooks/utils.js:269-316 | the whole loop keeps the main activity a node of the tree and the document element in place, and hands out at most one new `_id` per item |
| `AndroidManifest.UpdateAndroidManifest` | hooks/utils.js:264-320 | with no items the manifest is unchanged, and the document element keeps its tag, `_id`, text and tail; what each item does is stated by `ApplyIsLocal` and the lemmas after it |
| `AndroidManifest.ApplyKeepsAncestors` | hooks/utils.js:269-316 | the resolved parent's ancestors keep their own fields and their number of children |
| `AndroidManifest.ApplyKeepsRootNode` | hooks/utils.js:264-316 | one item never replaces the document element, and hands out at most one new `_id` |
| `AndroidManifest.MergeInto` | hooks/utils.js:287-314 | the parent keeps tag, text, tail and `_id`; a preference touches no child; a config-file item keeps the attributes, adds at most one child and leaves non-matching children alone |
| `AndroidManifest.ApplyIsLocal` | hooks/utils.js:269-316 | an item changes the tree only by replacing its parent node with the merged one |
| `AndroidManifest.ApplyLeavesRestAlone` | hooks/utils.js:269-316 | every node outside the parent's subtree is unchanged |
| `AndroidManifest.PreferenceSetsOneAttribute` | hooks/utils.js:287-288 | a preference item sets only `attrib[destination]`, to the raw `value` attribute and not the default |
| `AndroidManifest.ConfigReplacesFirstMatch` | hooks/utils.js:295-313 | an existing matching child is replaced wholesale by the item's element, keeping only its own `_id` |
| `AndroidManifest.ConfigAppendsWhenMissing` | hooks/utils.js:296-300 | without a matching child the element is appended with a fresh `_id` |
| `AndroidManifest.MergeIntoIdempotent` | hooks/utils.js:289-314 | merging the same item into its own result changes nothing |
| `AndroidManifest.ApplyIdempotent` | hooks/utils.js:269-316 | applying an item twice gives the tree applying it once gives, when its parent resolves to the same node and its element is found again by its own child lookup (`FindsItself`) |
| `AndroidManifest.MainActivityItemKeepsMain` | hooks/utils.js:272-273 | an item aimed at the main activity leaves the main activity in place |
| `AndroidManifest.MainActivityItemIdempotent` | hooks/utils.js:272-273 | items aimed at the main activity whose element is found again by its own child lookup (`FindsItself`) are idempotent |
| `AndroidManifest.ConfigItemLands` | hooks/utils.js:289-314 | after a config-file item the parent holds a copy of its element, and every child that did not match is still there |
| `AndroidManifest.OtherPermissionSurvives` | hooks/utils.js:291-292 | a `uses-permission` item does not disturb a permission with another `android:name` |
| `AndroidManifest.DistinctPermissionsBothKept` | hooks/utils.js:290-300 | two permission items with different names under one parent both end up present |
| `IosPlist.AssignKey` | hooks/utils.js:335 | `infoPlist[key] = configPlistObj[key]`: the key takes the fragment's entry and every other key is untouched |
| `IosPlist.Fragment` | hooks/utils.js:331-332 | the fragment starts with the item's parent as its one key, and a renderable element reads back from what follows as its projection, followed by the closing `</dict></plist>` |
| `IosPlist.MergePlist` | hooks/utils.js:329-336 | the loop completes exactly when every item's fragment parses |
| `IosPlist.MergeEntries` | hooks/utils.js:329-336 | each key ends as the entry of the last item with that parent, or its original entry when no item has it |
| `IosPlist.UntouchedKeysKept` | hooks/utils.js:329-336 | keys no item names keep their presence and their values |
| `IosPlist.MatchAt` | hooks/utils.js:339 | a match is `<string>`, then whitespace only, then `</string>`, at least 17 characters long |
| `IosPlist.MatchShape` | hooks/utils.js:339 | the matched text splits into the open tag, a whitespace-only middle and the close tag |
| `IosPlist.Normalize` | hooks/utils.js:339 | the rewrite never lengthens the text, keeps its first character and leaves a text without `<` unchanged |
| `IosPlist.NormalizeOnlyDeletesSpace` | hooks/utils.js:339 | the rewrite deletes whitespace and nothing else: the text keeps all its non-whitespace characters, in order |
| `IosPlist.FixpointIffClean` | hooks/utils.js:339 | the rewrite leaves a text unchanged exactly when every whitespace-only string element is already empty |
| `IosPlist.NormalizeIsClean` | hooks/utils.js:339 | the rewrite's output has no non-empty whitespace-only string element |
| `IosPlist.NormalizeIdempotent` | hooks/utils.js:339 | rewriting twice gives what rewriting once gives |
| `IosPlist.UpdateIosPlist` | hooks/utils.js:325-342 | a text is produced exactly when the file and every fragment parse; it is the rewrite of `build` applied to the merged dictionary, the one whose every key reads as the last item with that parent left it, and it is a fixpoint of the rewrite |
| `Platforms.PlatformVersion` | hooks/utils.js:11-21 | the version is the `platforms.json` entry for the platform, `undefined` without one |
| `Platforms.PlatformPath` | hooks/utils.js:42-46 | the path is the project root, then `/platforms/`, then the platform name |
| `Platforms.WwwPath` | hooks/utils.js:56-71 | there is a www path exactly for android and ios |
| `Platforms.ModernIffFirstChar` | hooks/utils.js:62-63 | `version >= "7"` holds exactly when the version's first character is `7` or later |
| `Platforms.DoubleDigitAndroidIsLegacy` | hooks/utils.js:61-66 | an Android version starting with `1`–`6` (so also 10 and later) gets `assets/www` |
| `Platforms.VersionExamples` | hooks/utils.js:63-67 | `10.0.0` and `6.4.0` and a missing version are legacy; `7.1.4` is modern |
| `Platforms.IosWwwPathFixed` | hooks/utils.js:56-71 | the iOS www path is `<projectRoot>/platforms/ios/www` whatever versions are recorded |
| `Platforms.AndroidAndIosApart` | hooks/utils.js:56-71 | android and ios never share a www path, whatever versions each reads |
| `Hooks.SkipGoogleServicesHook` | hooks/skip_google_services_hook.js:15-21 | the hook fails exactly when the lookup throws, and otherwise appends to `platforms/android/gradle.properties` |
| `Hooks.GradleLine` | hooks/skip_google_services_hook.js:10-13 | the appended text starts a new line and holds the name, `=` and the value; `GradleLineReadsBack` reads them back |
| `Hooks.GradleLineReadsBack` | hooks/skip_google_services_hook.js:10-13 | the appended text reads back as the property name and the value |
| `Hooks.SkipHookWritesProperty` | hooks/skip_google_services_hook.js:15-21 | the line carries `uaSkipApplyGoogleServicesPlugin` with the value when truthy, `false` otherwise |
| `Hooks.OneLineIffNoBreak` | hooks/skip_google_services_hook.js:12 | the append is one new line exactly when the value has no line break |
| `Hooks.AnyCaseNameDecides` | hooks/skip_google_services_hook.js:15 | a preference named in lower case is found, and decides the value |
| `Hooks.GoogleServicesCleanup` | hooks/google_services_cleanup.js:6-15 | the folder is removed exactly when the preference is falsy, and the removed path is the www path followed by `google-services` |
| `Hooks.CleanupFailsOnlyWithoutWww` | hooks/google_services_cleanup.js:7-9 | apart from a failed lookup, the cleanup fails exactly when it would remove and the platform has no www folder |
| `Hooks.CleanupIffDefaultWritten` | hooks/google_services_cleanup.js:6-15 | the cleanup removes exactly when the gradle line carries the default `false`, unless the preference is the string `false` |
| `Hooks.LiteralFalseDiverges` | hooks/google_services_cleanup.js:7-14 | the string `false` writes the same gradle line as a missing preference, but keeps the folder where the missing preference removes it |

## Left out

- File I/O is not modelled: reading and writing the manifest, the plist, config.xml and gradle.properties, and `rmNonEmptyDir`. Contents go in as values; effects come out as values.
- The Byte Order Mark skipping in `parseElementtreeSync` is not modelled. It is part of file reading.
- The module globals `rootdir` and `configXmlData` are not modelled, and neither is the config cache that ignores its file name. The parsed config.xml is a parameter.
- The `elementtree` XPath engine is not modelled. Item parents go through an abstract `find`. Selectors built from names with quotes or brackets are not interpreted.
- `tree.write`, `plist.parse` and `plist.build` are parameters, not implementations.
- `IosPlist.UpdateIosPlist`: the merged dictionary's key order is not modelled, and so neither is the order of the keys in the output text. The dictionary is an unordered map. `plist.build` writes keys in insertion order: keys read from the file keep their order and keys added by items go at the end. Two Info.plist files with the same entries in different orders give the same model output but different texts.
- The preference mapping table is a parameter. It is not defined in `hooks/utils.js`.
- Property keys named like `Object.prototype` members (`constructor`, `__proto__`) are not modelled.
- JavaScript lists integer-like object keys first in `for…in`. Targets are taken in insertion order here. Index keys always contain `|`, so this does not affect them.
- `attrib` and `_children` are shared between config.xml and the manifest after a copy. Copies are values here.
- When a replaced child contained the main activity, the main activity is no longer tracked. In JavaScript, writes to that detached node never reach the output.
- `_id` values come from the `nextId` counter. The library uses a global counter.
- The plist file path (`findtext('name')`) and the Android manifest path are not modelled.
- Logging (`console.log`) is not modelled.
- The Promise is not modelled. Its single resolution with no value, on non-throwing paths, is machinery only.
- A missing `platforms.json` makes `require` throw. This is not modelled: the versions map is a parameter.
- `Platforms.PlatformPath`: segments are joined with `/` without `path.join`'s normalisation, and the same holds for `Platforms.WwwPath`. Repeated separators and `..` are kept as written: `path.join("/a/", "platforms", "android")` is `/a/platforms/android`, while the model gives `/a//platforms/android`.
- `AndroidManifest.UpdateAndroidManifest`: the merge is not idempotent across runs. Each run searches for the main activity again. A config-file item of an earlier run aimed at `activity` under `application` finds the first activity and copies its own children over that activity's. If that was the main activity and the copied children lack the `MAIN` intent filter, the activity is no longer the main one. The next run then finds no main activity, so it skips the items aimed at it and merges the rest differently. `MergeIntoIdempotent` covers one item applied twice within one state.
- `AndroidManifest.SetAttribute`: a missing `value` removes the attribute. The source stores `undefined`, and what the element writer does with that is not part of this model.
- `IosPlist.AssignKey`: a fragment without the key removes the key. The source stores `undefined`, and what `plist.build` does with that is not part of this model.
- `ConfigXml.CaseInsensitiveLookup`: case folding covers ASCII letters only. `toLowerCase` also folds letters of other scripts.
- `JsStrings.LexLess` is not a model of UTF-16 comparison: it compares code points. The two orders agree on the Basic Multilingual Plane.
- `AndroidManifest.MergeIntoIdempotent`: idempotence is proved for items whose element is found again by its own child lookup (`FindsItself`). A `uses-permission` element without `android:name` is not found again, and the source appends it again on a second application.

=== FILE: assoc.dfy ===
/** A JavaScript object used as a dictionary whose keys are never
    integer-like: its properties are enumerated in the order they were first
    created, and assigning to an existing property keeps its place.
    Modelled as a list of (key, value) pairs with distinct keys.
 */
module Assoc {
  import opened Wrappers
  import opened Seqs

  function Keys<V>(a: seq<(string, V)>): (ks: seq<string>)
    ensures |ks| == |a|
    ensures forall i :: 0 <= i < |a| ==> ks[i] == a[i].0
  {
    if |a| == 0 then [] else [a[0].0] + Keys(a[1..])
  }

  predicate Distinct(ks: seq<string>) {
    forall i, j :: 0 <= i < j < |ks| ==> ks[i] != ks[j]
  }

  /** `obj[k]`: the value stored under `k`, or `undefined`. */
  function Find<V>(a: seq<(string, V)>, k: string): (r: Option<V>)
    ensures r.None? <==> k !in Keys(a)
    ensures r.Some? ==> exists i :: 0 <= i < |a| && a[i] == (k, r.value)
  {
    if |a| == 0 then None
    else if a[0].0 == k then Some(a[0].1)
    else
      var r := Find(a[1..], k);
      assert r.Some? ==> exists i :: 0 <= i < |a[1..]| && a[1..][i] == (k, r.value);
      assert r.Some? ==> exists i :: 0 <= i < |a| && a[i] == (k, r.value) by {
        if r.Some? {
          var i :| 0 <= i < |a[1..]| && a[1..][i] == (k, r.value);
          assert a[i + 1] == (k, r.value);
        }
      }
      r
  }

  /** `obj[k] = v`: replaces the value in place when `k` is present,
      otherwise adds `k` as the last property. */
  function Put<V>(a: seq<(string, V)>, k: string, v: V): (r: seq<(string, V)>)
    ensures Keys(r) == if k in Keys(a) then Keys(a) else Keys(a) + [k]
  {
    if |a| == 0 then [(k, v)]
    else if a[0].0 == k then
      var r := [(k, v)] + a[1..];
      assert r[1..] == a[1..];
      r
    else
      var r := [a[0]] + Put(a[1..], k, v);
      assert r[1..] == Put(a[1..], k, v);
      assert Keys(a) == [a[0].0] + Keys(a[1..]);
      r
  }

  /** After `obj[k] = v`, reading `k` gives `v` and every other key reads as before. */
  lemma {:induction false} FindPut<V>(a: seq<(string, V)>, k: string, v: V, u: string)
    ensures Find(Put(a, k, v), u) == if u == k then Some(v) else Find(a, u)
  {
    if |a| > 0 && a[0].0 != k {
      var r := Put(a, k, v);
      assert r[1..] == Put(a[1..], k, v);
      FindPut(a[1..], k, v, u);
    } else if |a| > 0 {
      assert Put(a, k, v)[1..] == a[1..];
    }
  }

  /** Assigning a new key appends it, with its value, as the last property. */
  lemma {:induction false} PutNewAppends<V>(a: seq<(string, V)>, k: string, v: V)
    requires k !in Keys(a)
    ensures Put(a, k, v) == a + [(k, v)]
  {
    if |a| > 0 {
      var head, rest := a[0], a[1..];
      assert Keys(a) == [head.0] + Keys(rest);
      PutNewAppends(rest, k, v);
      HeadTail(a);
      Reassociate(Put(a, k, v), a, [head], Put(rest, k, v), rest, [(k, v)]);
    }
  }

  /** Assigning the first key replaces its value in place. */
  lemma PutFirstInPlace<V>(a: seq<(string, V)>, k: string, v: V)
    requires |a| > 0 && a[0].0 == k
    ensures Put(a, k, v) == [(k, v)] + a[1..]
  {
  }

  /** Assignment never creates a second property with the same name. */
  lemma PutDistinct<V>(a: seq<(string, V)>, k: string, v: V)
    ensures Distinct(Keys(a)) ==> Distinct(Keys(Put(a, k, v)))
  {
  }

  /** The list stored under `k`, an absent key reading as empty
      (`obj[k] || []`). */
  function ListAt<T>(a: seq<(string, seq<T>)>, k: string): seq<T> {
    Find(a, k).GetOr([])
  }

  /** `const xs = obj[k] || []; xs.push(...ys); obj[k] = xs;` —
      the key is created even when `ys` is empty. */
  function Push<T>(a: seq<(string, seq<T>)>, k: string, ys: seq<T>): (r: seq<(string, seq<T>)>)
    ensures ListAt(r, k) == ListAt(a, k) + ys
    ensures forall u :: u != k ==> ListAt(r, u) == ListAt(a, u)
    ensures k in Keys(r)
    ensures Distinct(Keys(a)) ==> Distinct(Keys(r))
  {
    var r := Put(a, k, ListAt(a, k) + ys);
    FindPut(a, k, ListAt(a, k) + ys, k);
    assert forall u :: u != k ==> ListAt(r, u) == ListAt(a, u) by {
      forall u | u != k ensures ListAt(r, u) == ListAt(a, u) {
        FindPut(a, k, ListAt(a, k) + ys, u);
      }
    }
    PutDistinct(a, k, ListAt(a, k) + ys);
    r
  }
}

=== FILE: config.dfy ===
/** Reading preferences out of the parsed `config.xml` (hooks/utils.js,
    `getPreferences` and `getPreference`).

    The parsed document is passed in explicitly; the module-level cache of
    hooks/utils.js is not modelled.
 */
module ConfigXml {
  import opened Wrappers
  import opened Seqs
  import opened JsStrings
  import opened Elements

  predicate IsPreference(e: Element) {
    e.tag == "preference"
  }

  /** A `<platform name="…">` block of the given platform. */
  predicate IsPlatformBlock(e: Element, platform: string) {
    e.tag == "platform" && Attr(e, "name") == Some(platform)
  }

  /** `x` is a `tag` child of some `<platform name=platform>` child of the root. */
  predicate InPlatformScope(blocks: seq<Element>, platform: string, tag: string, x: Element) {
    exists i :: 0 <= i < |blocks| && IsPlatformBlock(blocks[i], platform) && x in blocks[i].children && x.tag == tag
  }

  /** The selector step that keeps the children with a given tag. */
  function TagIs(tag: string): Element -> bool {
    (e: Element) => e.tag == tag
  }

  /** What one block contributes to `findall`. */
  function BlockMatches(block: Element, platform: string, tag: string): seq<Element> {
    if IsPlatformBlock(block, platform) then ChildrenWhere(block.children, TagIs(tag)) else []
  }

  /** `root.findall("platform[@name='<platform>']/<tag>")`: the `tag`
      children of every matching platform block, block by block, each in
      document order. */
  function ScopedChildren(blocks: seq<Element>, platform: string, tag: string): (r: seq<Element>)
    ensures forall x :: x in r <==> InPlatformScope(blocks, platform, tag, x)
  {
    if |blocks| == 0 then []
    else
      var here := BlockMatches(blocks[0], platform, tag);
      var r := here + ScopedChildren(blocks[1..], platform, tag);
      assert forall x :: InPlatformScope(blocks[1..], platform, tag, x) ==> InPlatformScope(blocks, platform, tag, x) by {
        forall x | InPlatformScope(blocks[1..], platform, tag, x) ensures InPlatformScope(blocks, platform, tag, x) {
          var i :| 0 <= i < |blocks[1..]| && IsPlatformBlock(blocks[1..][i], platform) && x in blocks[1..][i].children && x.tag == tag;
          assert blocks[i + 1] == blocks[1..][i];
        }
      }
      assert forall x :: InPlatformScope(blocks, platform, tag, x) ==> x in r by {
        forall x | InPlatformScope(blocks, platform, tag, x) ensures x in r {
          var i :| 0 <= i < |blocks| && IsPlatformBlock(blocks[i], platform) && x in blocks[i].children && x.tag == tag;
          if i > 0 {
            assert blocks[1..][i - 1] == blocks[i];
            assert InPlatformScope(blocks[1..], platform, tag, x);
          }
        }
      }
      r
  }

  /** The matches of `findall` over two runs of blocks are those of the
      first run followed by those of the second. */
  lemma {:induction false} ScopedChildrenAppend(a: seq<Element>, b: seq<Element>, platform: string, tag: string)
    ensures ScopedChildren(a + b, platform, tag) == ScopedChildren(a, platform, tag) + ScopedChildren(b, platform, tag)
    decreases |a|
  {
    if |a| == 0 {
      assert a + b == b;
    } else {
      var ab := a + b;
      ConcatHeadTail(a, b);
      ScopedChildrenAppend(a[1..], b, platform, tag);
      ScopedChildrenUnfold(ab, platform, tag);
      ScopedChildrenUnfold(a, platform, tag);
      Reassociate(ScopedChildren(ab, platform, tag), ScopedChildren(a, platform, tag), BlockMatches(a[0], platform, tag),
                  ScopedChildren(ab[1..], platform, tag), ScopedChildren(a[1..], platform, tag), ScopedChildren(b, platform, tag));
    }
  }

  lemma ScopedChildrenUnfold(blocks: seq<Element>, platform: string, tag: string)
    requires |blocks| > 0
    ensures ScopedChildren(blocks, platform, tag) == BlockMatches(blocks[0], platform, tag) + ScopedChildren(blocks[1..], platform, tag)
  {
  }

  /** One block contributes its `tag` children in document order when it
      is a block of the platform, and nothing otherwise. */
  lemma ScopedChildrenOne(block: Element, platform: string, tag: string)
    ensures ScopedChildren([block], platform, tag) ==
              if IsPlatformBlock(block, platform) then ChildrenWhere(block.children, TagIs(tag)) else []
  {
  }

  /** `configXml.findall('preference')`: the top-level preferences. */
  function CommonPreferences(config: Element): (r: seq<Element>)
    ensures forall x :: x in r <==> x in config.children && IsPreference(x)
  {
    ChildrenWhere(config.children, IsPreference)
  }

  /** `getPreferences(platform)`: every common preference first, in
      document order, then, for a non-empty platform name, the platform's
      own preferences. For the platform name "common" the lookup table of
      hooks/utils.js already holds the common list, which is then appended a
      second time. */
  function Preferences(config: Element, platform: string): (r: seq<Element>)
    ensures |CommonPreferences(config)| <= |r|
    ensures r[..|CommonPreferences(config)|] == CommonPreferences(config)
    ensures forall x :: x in r[|CommonPreferences(config)|..] ==>
              if platform == "common" then x in config.children && IsPreference(x)
              else InPlatformScope(config.children, platform, "preference", x)
    ensures platform != "" && platform != "common" ==>
              forall x :: InPlatformScope(config.children, platform, "preference", x) ==> x in r[|CommonPreferences(config)|..]
    ensures platform == "" ==> r == CommonPreferences(config)
    ensures platform == "common" ==> r == CommonPreferences(config) + CommonPreferences(config)
    ensures platform != "" && platform != "common" ==>
              r == CommonPreferences(config) + ScopedChildren(config.children, platform, "preference")
  {
    var common := CommonPreferences(config);
    var r :=
      if platform == "" then common
      else if platform == "common" then common + common
      else common + ScopedChildren(config.children, platform, "preference");
    assert r[|common|..] == r[|common|..|r|];
    r
  }

  /** The JavaScript value `(!value || value === '') ? default : value`. */
  function Effective(p: Element): (r: Option<string>)
    ensures Attr(p, "value").Some? && Attr(p, "value").value != "" ==> r == Attr(p, "value")
    ensures (Attr(p, "value").None? || Attr(p, "value") == Some("")) ==> r == Attr(p, "default")
  {
    match Attr(p, "value")
    case Some(v) => if v != "" then Some(v) else Attr(p, "default")
    case None => Attr(p, "default")
  }

  /** The name of a preference, compared ignoring (ASCII) case. */
  predicate NameMatches(p: Element, name: string) {
    Attr(p, "name").Some? && Lower(Attr(p, "name").value) == Lower(name)
  }

  /** The loop of `getPreference` got past index `k`: every preference
      before it has a name, and none of those names matches. */
  predicate ScannedPast(prefs: seq<Element>, name: string, k: nat)
    requires k <= |prefs|
  {
    forall j :: 0 <= j < k ==> Attr(prefs[j], "name").Some? && !NameMatches(prefs[j], name)
  }

  /** `attrib.name.toLowerCase()` on a preference without a name throws;
      `position` is the loop index at which it happens. */
  datatype LookupError = NamelessPreference(position: nat)

  /** The remaining iterations of the loop in `getPreference`, with
      `prefs[0]` at loop index `start`. */
  function ScanPreferences(prefs: seq<Element>, name: string, start: nat): (r: Result<Option<string>, LookupError>)
    ensures r.Err? ==>
              && start <= r.error.position < start + |prefs|
              && Attr(prefs[r.error.position - start], "name").None?
              && ScannedPast(prefs, name, r.error.position - start)
    ensures r.Ok? && r.value.Some? ==>
              exists k :: 0 <= k < |prefs| && ScannedPast(prefs, name, k) && NameMatches(prefs[k], name)
                          && Effective(prefs[k]) == r.value
    decreases |prefs|
  {
    if |prefs| == 0 then Ok(None)
    else
      match Attr(prefs[0], "name")
      case None => Err(NamelessPreference(start))
      case Some(n) =>
        if Lower(n) == Lower(name) then
          assert ScannedPast(prefs, name, 0);
          Ok(Effective(prefs[0]))
        else
          var r := ScanPreferences(prefs[1..], name, start + 1);
          if r.Err? then
            assert ScannedPast(prefs, name, r.error.position - start) by {
              assert ScannedPast(prefs[1..], name, r.error.position - start - 1);
              forall j | 0 <= j < r.error.position - start
                ensures Attr(prefs[j], "name").Some? && !NameMatches(prefs[j], name)
              {
                if j > 0 { assert prefs[j] == prefs[1..][j - 1]; }
              }
            }
            r
          else if r.value.Some? then
            var k :| 0 <= k < |prefs[1..]| && ScannedPast(prefs[1..], name, k) && NameMatches(prefs[1..][k], name)
                     && Effective(prefs[1..][k]) == r.value;
            assert ScannedPast(prefs, name, k + 1) by {
              forall j | 0 <= j < k + 1 ensures Attr(prefs[j], "name").Some? && !NameMatches(prefs[j], name) {
                if j > 0 { assert prefs[j] == prefs[1..][j - 1]; }
              }
            }
            assert prefs[k + 1] == prefs[1..][k];
            r
          else r
  }

  /** `getPreference(context, platform, prefName)`: `Ok(None)` is the
      JavaScript `undefined`, `Err` a thrown `TypeError`. */
  function GetPreference(config: Element, platform: string, name: string): (r: Result<Option<string>, LookupError>)
    ensures var prefs := Preferences(config, platform);
            r.Err? ==> r.error.position < |prefs| && Attr(prefs[r.error.position], "name").None?
                       && ScannedPast(prefs, name, r.error.position)
    ensures var prefs := Preferences(config, platform);
            forall k :: 0 <= k < |prefs| && ScannedPast(prefs, name, k) && NameMatches(prefs[k], name) ==>
              r == Ok(Effective(prefs[k]))
    ensures ScannedPast(Preferences(config, platform), name, |Preferences(config, platform)|) ==> r == Ok(None)
    ensures var prefs := Preferences(config, platform);
            forall j :: 0 <= j < |prefs| && ScannedPast(prefs, name, j) && Attr(prefs[j], "name").None? ==>
              r == Err(NamelessPreference(j))
  {
    var prefs := Preferences(config, platform);
    assert forall j :: 0 <= j < |prefs| && ScannedPast(prefs, name, j) && Attr(prefs[j], "name").None? ==>
             ScanPreferences(prefs, name, 0) == Err(NamelessPreference(j)) by {
      forall j | 0 <= j < |prefs| && ScannedPast(prefs, name, j) && Attr(prefs[j], "name").None?
        ensures ScanPreferences(prefs, name, 0) == Err(NamelessPreference(j))
      {
        NamelessThrows(prefs, name, 0, j);
      }
    }
    assert forall k :: 0 <= k < |prefs| && ScannedPast(prefs, name, k) && NameMatches(prefs[k], name) ==>
             ScanPreferences(prefs, name, 0) == Ok(Effective(prefs[k])) by {
      forall k | 0 <= k < |prefs| && ScannedPast(prefs, name, k) && NameMatches(prefs[k], name)
        ensures ScanPreferences(prefs, name, 0) == Ok(Effective(prefs[k]))
      {
        FirstMatchWins(prefs, name, 0, k);
      }
    }
    assert ScannedPast(prefs, name, |prefs|) ==> ScanPreferences(prefs, name, 0) == Ok(None) by {
      if ScannedPast(prefs, name, |prefs|) {
        NoMatchIsUndefined(prefs, name, 0);
      }
    }
    ScanPreferences(prefs, name, 0)
  }

  /** The first preference whose name matches decides the result: its
      `value`, or its `default` when `value` is absent or empty. */
  lemma {:induction false} FirstMatchWins(prefs: seq<Element>, name: string, start: nat, k: nat)
    requires k < |prefs| && ScannedPast(prefs, name, k) && NameMatches(prefs[k], name)
    ensures ScanPreferences(prefs, name, start) == Ok(Effective(prefs[k]))
    decreases k
  {
    if k > 0 {
      assert ScannedPast(prefs[1..], name, k - 1) by {
        forall j | 0 <= j < k - 1 ensures Attr(prefs[1..][j], "name").Some? && !NameMatches(prefs[1..][j], name) {
          assert prefs[1..][j] == prefs[j + 1];
        }
      }
      FirstMatchWins(prefs[1..], name, start + 1, k - 1);
    }
  }

  /** The loop throws at the first nameless preference it reaches:
      `attrib.name.toLowerCase()` on `undefined`. */
  lemma {:induction false} NamelessThrows(prefs: seq<Element>, name: string, start: nat, j: nat)
    requires j < |prefs| && ScannedPast(prefs, name, j) && Attr(prefs[j], "name").None?
    ensures ScanPreferences(prefs, name, start) == Err(NamelessPreference(start + j))
    decreases j
  {
    if j > 0 {
      assert ScannedPast(prefs[1..], name, j - 1) by {
        forall i | 0 <= i < j - 1 ensures Attr(prefs[1..][i], "name").Some? && !NameMatches(prefs[1..][i], name) {
          assert prefs[1..][i] == prefs[i + 1];
        }
      }
      NamelessThrows(prefs[1..], name, start + 1, j - 1);
    }
  }

  /** No name matches and every preference has a name: `undefined`. */
  lemma {:induction false} NoMatchIsUndefined(prefs: seq<Element>, name: string, start: nat)
    requires ScannedPast(prefs, name, |prefs|)
    ensures ScanPreferences(prefs, name, start) == Ok(None)
    decreases |prefs|
  {
    if |prefs| > 0 {
      assert ScannedPast(prefs[1..], name, |prefs| - 1) by {
        forall j | 0 <= j < |prefs| - 1 ensures Attr(prefs[1..][j], "name").Some? && !NameMatches(prefs[1..][j], name) {
          assert prefs[1..][j] == prefs[j + 1];
        }
      }
      NoMatchIsUndefined(prefs[1..], name, start + 1);
    }
  }

  /** Scanning a concatenation: the first list decides unless the loop gets
      past all of it, and then the second list decides at shifted indices. */
  lemma {:induction false} ScanConcat(a: seq<Element>, b: seq<Element>, name: string, start: nat)
    ensures ScanPreferences(a + b, name, start) ==
              if ScannedPast(a, name, |a|) then ScanPreferences(b, name, start + |a|)
              else ScanPreferences(a, name, start)
    decreases |a|
  {
    if |a| == 0 {
      assert a + b == b;
      assert ScanPreferences(a + b, name, start) == ScanPreferences(b, name, start + |a|);
    } else if Attr(a[0], "name").Some? && !NameMatches(a[0], name) {
      ScanConcat(a[1..], b, name, start + 1);
      ScanConcatSkip(a, b, name, start);
    } else {
      ConcatHeadTail(a, b);
      ScanStopsAtHead(a + b, a, name, start);
    }
  }

  /** The inductive step of `ScanConcat`, over a skipped first preference. */
  lemma ScanConcatSkip(a: seq<Element>, b: seq<Element>, name: string, start: nat)
    requires |a| > 0 && Attr(a[0], "name").Some? && !NameMatches(a[0], name)
    requires ScanPreferences(a[1..] + b, name, start + 1) ==
               if ScannedPast(a[1..], name, |a| - 1) then ScanPreferences(b, name, start + |a|)
               else ScanPreferences(a[1..], name, start + 1)
    ensures ScanPreferences(a + b, name, start) ==
              if ScannedPast(a, name, |a|) then ScanPreferences(b, name, start + |a|)
              else ScanPreferences(a, name, start)
  {
    ConcatHeadTail(a, b);
    ScanSkip(a + b, name, start);
    ScanSkip(a, name, start);
    ScannedPastSkip(a, name);
  }

  /** A named, non-matching first preference is stepped over. */
  lemma ScanSkip(prefs: seq<Element>, name: string, start: nat)
    requires |prefs| > 0 && Attr(prefs[0], "name").Some? && !NameMatches(prefs[0], name)
    ensures ScanPreferences(prefs, name, start) == ScanPreferences(prefs[1..], name, start + 1)
  {
  }

  /** A first preference without a name, or with a matching one, ends the
      loop whatever follows it. */
  lemma ScanStopsAtHead(p1: seq<Element>, p2: seq<Element>, name: string, start: nat)
    requires |p1| > 0 && |p2| > 0 && p1[0] == p2[0]
    requires !(Attr(p1[0], "name").Some? && !NameMatches(p1[0], name))
    ensures ScanPreferences(p1, name, start) == ScanPreferences(p2, name, start)
    ensures !ScannedPast(p2, name, |p2|)
  {
  }

  lemma ScannedPastSkip(a: seq<Element>, name: string)
    requires |a| > 0 && Attr(a[0], "name").Some? && !NameMatches(a[0], name)
    ensures ScannedPast(a, name, |a|) <==> ScannedPast(a[1..], name, |a| - 1)
  {
    if ScannedPast(a[1..], name, |a| - 1) {
      forall j | 0 <= j < |a| ensures Attr(a[j], "name").Some? && !NameMatches(a[j], name) {
        if j > 0 { assert a[j] == a[1..][j - 1]; }
      }
    }
    if ScannedPast(a, name, |a|) {
      forall j | 0 <= j < |a| - 1 ensures Attr(a[1..][j], "name").Some? && !NameMatches(a[1..][j], name) {
        assert a[1..][j] == a[j + 1];
      }
    }
  }

  /** A matching common preference shadows every platform preference of the
      same name: the result is the one the common list alone gives. */
  lemma CommonShadowsPlatform(config: Element, platform: string, name: string, k: nat)
    requires k < |CommonPreferences(config)|
    requires ScannedPast(CommonPreferences(config), name, k)
    requires NameMatches(CommonPreferences(config)[k], name)
    ensures GetPreference(config, platform, name) == Ok(Effective(CommonPreferences(config)[k]))
  {
    var common := CommonPreferences(config);
    var prefs := Preferences(config, platform);
    assert prefs == common + prefs[|common|..];
    assert !ScannedPast(common, name, |common|);
    ScanConcat(common, prefs[|common|..], name, 0);
    FirstMatchWins(common, name, 0, k);
  }

  /** Names that differ only in (ASCII) letter case look up the same thing. */
  lemma {:induction false} CaseInsensitiveLookup(prefs: seq<Element>, n1: string, n2: string, start: nat)
    requires Lower(n1) == Lower(n2)
    ensures ScanPreferences(prefs, n1, start) == ScanPreferences(prefs, n2, start)
    decreases |prefs|
  {
    if |prefs| > 0 {
      CaseInsensitiveLookup(prefs[1..], n1, n2, start + 1);
    }
  }
}

=== FILE: elements.dfy ===
/** The element tree of the `elementtree` library as a value: every node
    carries the library's generated `_id`, its `tag`, the `attrib`
    dictionary, `text`, `tail` and the ordered `_children`.

    A node inside a tree is addressed by a `Path`, the child indices
    followed from the root; in-place mutation of a node becomes `Replace`
    at its path.
 */
module Elements {
  import opened Wrappers
  import opened Seqs

  type Attrs = map<string, string>

  datatype Element = Element(
    id: nat,
    tag: string,
    attrib: Attrs,
    text: Option<string>,
    tail: Option<string>,
    children: seq<Element>)

  /** `el.attrib[name]`, `undefined` when absent. */
  function Attr(e: Element, name: string): Option<string> {
    Get(e.attrib, name)
  }

  /** Index of the first element satisfying `p`, if any. */
  function FirstIndex(s: seq<Element>, p: Element -> bool): (r: Option<nat>)
    ensures r.Some? ==> r.value < |s| && p(s[r.value])
    ensures r.Some? ==> forall j :: 0 <= j < r.value ==> !p(s[j])
    ensures r.None? ==> forall j :: 0 <= j < |s| ==> !p(s[j])
  {
    if |s| == 0 then None
    else if p(s[0]) then Some(0)
    else
      match FirstIndex(s[1..], p)
      case None => None
      case Some(i) => Some(i + 1)
  }

  /** The children of `e`, in order, that satisfy `p`. */
  function ChildrenWhere(cs: seq<Element>, p: Element -> bool): (r: seq<Element>)
    ensures |r| <= |cs|
    ensures forall x :: x in r <==> x in cs && p(x)
  {
    if |cs| == 0 then []
    else (if p(cs[0]) then [cs[0]] else []) + ChildrenWhere(cs[1..], p)
  }

  /** Filtering a concatenation filters each part and keeps them in order;
      with `ChildrenWhereOne` this pins the result down as the elements
      satisfying `p`, in their order and with their repetitions. */
  lemma {:induction false} ChildrenWhereAppend(a: seq<Element>, b: seq<Element>, p: Element -> bool)
    ensures ChildrenWhere(a + b, p) == ChildrenWhere(a, p) + ChildrenWhere(b, p)
    decreases |a|
  {
    if |a| == 0 {
      assert a + b == b;
    } else {
      ConcatHeadTail(a, b);
      ChildrenWhereAppend(a[1..], b, p);
    }
  }

  /** A single element is kept exactly when it satisfies `p`. */
  lemma ChildrenWhereOne(x: Element, p: Element -> bool)
    ensures ChildrenWhere([x], p) == if p(x) then [x] else []
  {
  }

  type Path = seq<nat>

  predicate ValidPath(e: Element, p: Path)
    decreases |p|
  {
    |p| == 0 || (p[0] < |e.children| && ValidPath(e.children[p[0]], p[1..]))
  }

  /** The node at path `p`. */
  function At(e: Element, p: Path): Element
    requires ValidPath(e, p)
    decreases |p|
  {
    if |p| == 0 then e else At(e.children[p[0]], p[1..])
  }

  /** The tree with the node at `p` replaced by `n`. */
  function Replace(e: Element, p: Path, n: Element): (r: Element)
    requires ValidPath(e, p)
    ensures ValidPath(r, p) && At(r, p) == n
    decreases |p|
  {
    if |p| == 0 then n
    else
      var r := e.(children := e.children[p[0] := Replace(e.children[p[0]], p[1..], n)]);
      assert r.children[p[0]] == Replace(e.children[p[0]], p[1..], n);
      r
  }

  /** `q` is a strict prefix of `p`: the node at `q` is a proper ancestor
      of the node at `p`. */
  predicate StrictPrefix(q: Path, p: Path) {
    |q| < |p| && q == p[..|q|]
  }

  /** Paths neither of which leads through the other. */
  predicate Disjoint(p: Path, q: Path) {
    !(p <= q) && !(q <= p)
  }

  /** Everything of a node except its descendants. */
  function Shell(e: Element): (Element, nat) {
    (e.(children := []), |e.children|)
  }

  /** Replacing one node leaves every node off its ancestor line as it was. */
  lemma {:induction false} ReplaceDisjoint(e: Element, p: Path, n: Element, q: Path)
    requires ValidPath(e, p) && ValidPath(e, q) && Disjoint(p, q)
    ensures ValidPath(Replace(e, p, n), q) && At(Replace(e, p, n), q) == At(e, q)
    decreases |p|
  {
    var r := Replace(e, p, n);
    assert |p| > 0 && |q| > 0;
    if p[0] == q[0] {
      assert Disjoint(p[1..], q[1..]);
      ReplaceDisjoint(e.children[p[0]], p[1..], n, q[1..]);
    }
  }

  /** The ancestors of a replaced node keep their own fields and number of
      children; only their descendants change. */
  lemma {:induction false} ReplaceAncestor(e: Element, p: Path, n: Element, q: Path)
    requires ValidPath(e, p) && StrictPrefix(q, p)
    ensures ValidPath(e, q)
    ensures ValidPath(Replace(e, p, n), q) && Shell(At(Replace(e, p, n), q)) == Shell(At(e, q))
    decreases |q|
  {
    if |q| > 0 {
      assert StrictPrefix(q[1..], p[1..]);
      ReplaceAncestor(e.children[p[0]], p[1..], n, q[1..]);
    }
  }

  /** A path that does not pass strictly through the replaced node stays a
      valid path. */
  lemma {:induction false} ReplaceKeepsPath(e: Element, p: Path, n: Element, q: Path)
    requires ValidPath(e, p) && ValidPath(e, q) && !StrictPrefix(p, q)
    ensures ValidPath(Replace(e, p, n), q)
    decreases |q|
  {
    if |q| > 0 && |p| > 0 && p[0] == q[0] {
      ReplaceKeepsPath(e.children[p[0]], p[1..], n, q[1..]);
    }
  }

  /** Replacing a node by one that has the same children plus more at the end
      keeps every path valid. */
  lemma {:induction false} GrowKeepsPath(e: Element, p: Path, n: Element, q: Path)
    requires ValidPath(e, p) && ValidPath(e, q)
    requires At(e, p).children <= n.children
    ensures ValidPath(Replace(e, p, n), q)
    decreases |q|
  {
    if |q| > 0 {
      if |p| > 0 && p[0] == q[0] {
        GrowKeepsPath(e.children[p[0]], p[1..], n, q[1..]);
      } else if |p| == 0 {
        assert n.children[q[0]] == e.children[q[0]];
      }
    }
  }

  /** A child of the node at `p` is at `p + [i]`. */
  lemma {:induction false} ExtendPath(e: Element, p: Path, i: nat)
    requires ValidPath(e, p) && i < |At(e, p).children|
    ensures ValidPath(e, p + [i]) && At(e, p + [i]) == At(e, p).children[i]
    decreases |p|
  {
    if |p| > 0 {
      assert (p + [i])[0] == p[0] && (p + [i])[1..] == p[1..] + [i];
      ExtendPath(e.children[p[0]], p[1..], i);
    } else {
      assert p + [i] == [i];
    }
  }

  /** Replacing a child is replacing that child in its parent's list. */
  lemma {:induction false} ReplaceChild(e: Element, p: Path, i: nat, n: Element)
    requires ValidPath(e, p) && i < |At(e, p).children|
    ensures ValidPath(e, p + [i])
    ensures Replace(e, p + [i], n) == Replace(e, p, At(e, p).(children := At(e, p).children[i := n]))
    decreases |p|
  {
    ExtendPath(e, p, i);
    if |p| > 0 {
      assert (p + [i])[0] == p[0] && (p + [i])[1..] == p[1..] + [i];
      ReplaceChild(e.children[p[0]], p[1..], i, n);
    } else {
      assert p + [i] == [i];
      assert [i][1..] == [];
    }
  }

  /** Putting back the node that is already there changes nothing. */
  lemma {:induction false} ReplaceSame(e: Element, p: Path)
    requires ValidPath(e, p)
    ensures Replace(e, p, At(e, p)) == e
    decreases |p|
  {
    if |p| > 0 {
      ReplaceSame(e.children[p[0]], p[1..]);
      assert e.children[p[0] := e.children[p[0]]] == e.children;
    }
  }
}

=== FILE: hooks.dfy ===
/** The two Cordova hooks: hooks/skip_google_services_hook.js appends the
    `UA_SKIP_GOOGLE_SERVICES` preference to Android's gradle.properties,
    and hooks/google_services_cleanup.js removes the copied
    `google-services` folder from the platform's www folder unless that
    preference is set. Both read the preference through `getPreference`
    with the platform "android", whatever platform the hook runs for.

    The file system is not touched here: a hook returns the action it
    would take.
 */
module Hooks {
  import opened Wrappers
  import opened JsStrings
  import opened Elements
  import opened ConfigXml
  import opened Platforms

  const GradleFile: string := "platforms/android/gradle.properties"
  const PreferenceName: string := "UA_SKIP_GOOGLE_SERVICES"
  const GradleProperty: string := "uaSkipApplyGoogleServicesPlugin"
  const GoogleServicesDir: string := "google-services"
  /** `'' + false`: what the default boolean becomes in the appended text. */
  const DefaultValue: string := "false"

  /** What a hook sees of the Cordova context: the project root, the
      platform it runs for, the contents of `platforms/platforms.json` and
      the parsed config.xml. */
  datatype HookContext = HookContext(projectRoot: string, platform: string, versions: map<string, string>, config: Element)

  /** JavaScript truthiness of a preference value: `undefined` and the
      empty string are false, every other string (also "false") is true. */
  predicate Truthy(v: Option<string>) {
    v.Some? && v.value != ""
  }

  /** `getPreference(context, 'android', 'UA_SKIP_GOOGLE_SERVICES')`. */
  function SkipPreference(ctx: HookContext): Result<Option<string>, LookupError> {
    GetPreference(ctx.config, "android", PreferenceName)
  }

  /** `fs.appendFileSync(file, text)`. */
  datatype FileAppend = FileAppend(file: string, text: string)

  /** The value written: the preference when truthy, `false` otherwise. */
  function GradleValue(v: Option<string>): (r: string)
    ensures Truthy(v) ==> r == v.value
    ensures !Truthy(v) ==> r == DefaultValue
    ensures r != ""
  {
    if Truthy(v) then v.value else DefaultValue
  }

  /** `addGradleProperty(libLoc, pref, value)`. */
  function GradleLine(name: string, value: string): (r: string)
    ensures |r| == |name| + |value| + 2 && r[0] == '\n'
  {
    "\n" + name + "=" + value
  }

  /** The skip hook: one append to gradle.properties, or the lookup's
      `TypeError`. */
  function SkipGoogleServicesHook(ctx: HookContext): (r: Result<FileAppend, LookupError>)
    ensures r.Err? <==> SkipPreference(ctx).Err?
    ensures r.Err? ==> r.error == SkipPreference(ctx).error
    ensures r.Ok? ==> r.value.file == GradleFile
  {
    var val :- SkipPreference(ctx);
    Ok(FileAppend(GradleFile, GradleLine(GradleProperty, GradleValue(val))))
  }

  /** A reader for one appended line: after the leading newline, the name
      runs up to the first '=' and the value is everything after it. */
  function ReadGradleLine(text: string): Option<(string, string)> {
    if |text| == 0 || text[0] != '\n' then None
    else
      var body := text[1..];
      var i := IndexOfChar(body, '=');
      if i == |body| then None else Some((body[..i], body[i + 1..]))
  }

  /** Reading the appended line gives back the property name and the value,
      whatever the value contains ('=' included), since the name has no
      '='. */
  lemma GradleLineReadsBack(name: string, value: string)
    requires '=' !in name
    ensures ReadGradleLine(GradleLine(name, value)) == Some((name, value))
  {
    var text := GradleLine(name, value);
    var body := text[1..];
    assert body == name + ("=" + value);
    IndexOfCharSkip(name, "=" + value, '=');
    assert body[..|name|] == name;
    assert body[|name| + 1..] == value;
  }

  /** The hook appends exactly the property line `uaSkipApplyGoogleServicesPlugin=<value>`,
      with the preference's value when it is truthy and `false` otherwise. */
  lemma SkipHookWritesProperty(ctx: HookContext)
    requires SkipPreference(ctx).Ok?
    ensures var r := SkipGoogleServicesHook(ctx);
            var v := SkipPreference(ctx).value;
            r.Ok? && ReadGradleLine(r.value.text) == Some((GradleProperty, if Truthy(v) then v.value else DefaultValue))
  {
    GradleLineReadsBack(GradleProperty, GradleValue(SkipPreference(ctx).value));
  }

  /** The appended text is a single new line exactly when the value has no
      line break. */
  lemma {:induction false} OneLineIffNoBreak(name: string, value: string)
    requires '\n' !in name
    ensures var t := GradleLine(name, value);
            t[0] == '\n' && ('\n' !in t[1..] <==> '\n' !in value)
  {
    var t := GradleLine(name, value);
    assert t[1..] == name + "=" + value;
    if '\n' in value {
      var k :| 0 <= k < |value| && value[k] == '\n';
      assert t[1..][|name| + 1 + k] == '\n';
    } else {
      forall c | c in t[1..] ensures c != '\n' {
        var k :| 0 <= k < |t[1..]| && t[1..][k] == c;
        if k >= |name| + 1 { assert c == value[k - |name| - 1]; }
        else if k < |name| { assert c == name[k]; }
      }
    }
  }

  /** The preference name is matched in any letter case: a config whose
      first matching preference is named in lower case decides the value. */
  lemma AnyCaseNameDecides(ctx: HookContext, k: nat)
    requires k < |Preferences(ctx.config, "android")|
    requires ScannedPast(Preferences(ctx.config, "android"), PreferenceName, k)
    requires Attr(Preferences(ctx.config, "android")[k], "name") == Some("ua_skip_google_services")
    ensures SkipPreference(ctx) == Ok(Effective(Preferences(ctx.config, "android")[k]))
  {
    var prefs := Preferences(ctx.config, "android");
    LowerCaseName();
    FirstMatchWins(prefs, PreferenceName, 0, k);
  }

  /** The lower-case spelling folds to the same name. */
  lemma LowerCaseName()
    ensures Lower("ua_skip_google_services") == Lower(PreferenceName)
  {
    var n := "ua_skip_google_services";
    assert forall i :: 0 <= i < |n| ==> LowerChar(n[i]) == LowerChar(PreferenceName[i]);
  }

  /** What the cleanup hook does on the file system. */
  datatype CleanupAction = RemoveDir(path: string) | KeepSources

  datatype HookError = LookupFailed(lookup: LookupError) | NoWwwFolder(platform: string)

  /** The cleanup hook: with a falsy preference it removes
      `<www>/google-services` (a thrown `path.join` when the platform has
      no www folder), otherwise it leaves the sources alone. */
  function GoogleServicesCleanup(ctx: HookContext): (r: Result<CleanupAction, HookError>)
    ensures SkipPreference(ctx).Err? ==> r == Err(LookupFailed(SkipPreference(ctx).error))
    ensures r.Ok? ==> SkipPreference(ctx).Ok? && (r.value.RemoveDir? <==> !Truthy(SkipPreference(ctx).value))
    ensures r.Ok? && r.value.RemoveDir? ==>
              WwwPath(ctx.projectRoot, ctx.platform, ctx.versions).Some?
              && r.value.path == Join(WwwPath(ctx.projectRoot, ctx.platform, ctx.versions).value, GoogleServicesDir)
  {
    match SkipPreference(ctx)
    case Err(e) => Err(LookupFailed(e))
    case Ok(val) =>
      if Truthy(val) then Ok(KeepSources)
      else
        match WwwPath(ctx.projectRoot, ctx.platform, ctx.versions)
        case None => Err(NoWwwFolder(ctx.platform))
        case Some(www) => Ok(RemoveDir(Join(www, GoogleServicesDir)))
  }

  /** The cleanup fails, beyond a failed lookup, only where there is a
      folder to remove and the platform has no www folder. */
  lemma CleanupFailsOnlyWithoutWww(ctx: HookContext)
    requires SkipPreference(ctx).Ok?
    ensures GoogleServicesCleanup(ctx).Err? <==>
              !Truthy(SkipPreference(ctx).value) && ctx.platform != "android" && ctx.platform != "ios"
  {
  }

  /** The two hooks agree on every value but one: the cleanup removes the
      folder exactly when gradle.properties receives the default `false`,
      unless the preference itself is the string "false". */
  lemma CleanupIffDefaultWritten(ctx: HookContext)
    requires SkipPreference(ctx).Ok?
    requires ctx.platform == "android" || ctx.platform == "ios"
    ensures var v := SkipPreference(ctx).value;
            var text := SkipGoogleServicesHook(ctx).value.text;
            GoogleServicesCleanup(ctx).Ok?
            && (GoogleServicesCleanup(ctx).value.RemoveDir? <==>
                  text == GradleLine(GradleProperty, DefaultValue) && v != Some(DefaultValue))
  {
    var v := SkipPreference(ctx).value;
    if Truthy(v) && v.value != DefaultValue {
      GradleLineReadsBack(GradleProperty, v.value);
      GradleLineReadsBack(GradleProperty, DefaultValue);
    }
  }

  /** A preference set to the string "false" writes the same gradle line as
      an absent one, yet the cleanup keeps the google-services folder for
      it and removes the folder for the absent one. */
  lemma LiteralFalseDiverges(withFalse: HookContext, without: HookContext)
    requires SkipPreference(withFalse) == Ok(Some(DefaultValue))
    requires SkipPreference(without) == Ok(None)
    requires without.platform == "android" || without.platform == "ios"
    ensures SkipGoogleServicesHook(withFalse).value.text == SkipGoogleServicesHook(without).value.text
    ensures GoogleServicesCleanup(withFalse) == Ok(KeepSources)
    ensures GoogleServicesCleanup(without).Ok? && GoogleServicesCleanup(without).value.RemoveDir?
  {
  }
}

=== FILE: index.dfy ===
/** The config-file indexer of hooks/utils.js
    (`getConfigFilesByTargetAndParent`): every `<config-file>` block of a
    platform is stored under the key `target + '|' + parent`, a later block
    replacing an earlier one with the same key.
 */
module ConfigIndex {
  import opened Wrappers
  import opened JsStrings
  import opened Elements
  import opened Assoc
  import opened ConfigXml

  /** The elementtree selector that stands for the document root. */
  const RootSelector: string := "./"

  const KeySeparator: char := '|'

  /** A missing, empty, `/*` or `*/` parent becomes the root selector;
      any other parent is kept verbatim. */
  function NormalizeParent(parent: Option<string>): (r: string)
    ensures r == RootSelector <==> parent.None? || parent.value in {"", "/*", "*/", RootSelector}
    ensures r != RootSelector ==> parent == Some(r)
  {
    match parent
    case None => RootSelector
    case Some(p) => if p == "" || p == "/*" || p == "*/" then RootSelector else p
  }

  /** `item.attrib.target` as string concatenation sees it: a missing
      target reads "undefined". */
  function TargetText(block: Element): string {
    Attr(block, "target").GetOr("undefined")
  }

  function BlockKey(block: Element): (k: string)
    ensures KeySeparator in k
  {
    var k := TargetText(block) + [KeySeparator] + NormalizeParent(Attr(block, "parent"));
    assert k[|TargetText(block)|] == KeySeparator;
    k
  }

  /** `findall("platform[@name='<platform>']/config-file")`. */
  function ConfigFileBlocks(config: Element, platform: string): seq<Element> {
    ScopedChildren(config.children, platform, "config-file")
  }

  /** The `forEach` over the blocks: each block is stored under its key,
      by plain property assignment. */
  function IndexBlocks(blocks: seq<Element>): (r: seq<(string, Element)>)
    ensures Distinct(Keys(r))
    ensures forall i :: 0 <= i < |r| ==> KeySeparator in r[i].0
  {
    if |blocks| == 0 then []
    else
      var prev := IndexBlocks(blocks[..|blocks| - 1]);
      var b := blocks[|blocks| - 1];
      PutDistinct(prev, BlockKey(b), b);
      var r := Put(prev, BlockKey(b), b);
      assert forall i :: 0 <= i < |r| ==> r[i].0 == Keys(r)[i];
      r
  }

  /** `getConfigFilesByTargetAndParent(platform)`. */
  function ConfigFilesByTargetAndParent(config: Element, platform: string): (r: seq<(string, Element)>)
    ensures Distinct(Keys(r))
    ensures forall k :: Find(r, k) == LastWithKey(ConfigFileBlocks(config, platform), k)
    ensures Keys(r) == FirstKeys(ConfigFileBlocks(config, platform))
  {
    var blocks := ConfigFileBlocks(config, platform);
    IndexKeysInFirstOrder(blocks);
    assert forall k :: Find(IndexBlocks(blocks), k) == LastWithKey(blocks, k) by {
      forall k ensures Find(IndexBlocks(blocks), k) == LastWithKey(blocks, k) {
        IndexHoldsLastBlock(blocks, k);
      }
    }
    IndexBlocks(blocks)
  }

  /** Position of the first block with key `k`; `|blocks|` when no block
      has it. */
  function FirstAt(blocks: seq<Element>, k: string): (r: nat)
    ensures r <= |blocks|
    ensures r < |blocks| ==> BlockKey(blocks[r]) == k
    ensures forall i :: 0 <= i < r ==> BlockKey(blocks[i]) != k
  {
    if |blocks| == 0 then 0
    else if BlockKey(blocks[0]) == k then 0
    else 1 + FirstAt(blocks[1..], k)
  }

  /** Appending a block moves no first occurrence; its key, when new, first
      occurs at its own position. */
  lemma FirstAtExtend(blocks: seq<Element>, k: string)
    requires |blocks| > 0
    ensures var pre := blocks[..|blocks| - 1];
            var q := FirstAt(pre, k);
            (q < |pre| ==> FirstAt(blocks, k) == q) &&
            (q == |pre| ==> FirstAt(blocks, k) == if BlockKey(blocks[|pre|]) == k then |pre| else |blocks|)
  {
    var pre := blocks[..|blocks| - 1];
    var q := FirstAt(pre, k);
    assert forall i :: 0 <= i < |pre| ==> pre[i] == blocks[i];
    if q < |pre| {
      FirstAtIs(blocks, k, q);
    } else if BlockKey(blocks[|pre|]) == k {
      FirstAtIs(blocks, k, |pre|);
    } else {
      FirstAtIs(blocks, k, |blocks|);
    }
  }

  /** The first position is the one before which no block has the key and
      at which a block has it, or the end. */
  lemma FirstAtIs(blocks: seq<Element>, k: string, m: nat)
    requires m <= |blocks| && (m < |blocks| ==> BlockKey(blocks[m]) == k)
    requires forall i :: 0 <= i < m ==> BlockKey(blocks[i]) != k
    ensures FirstAt(blocks, k) == m
  {
  }

  /** `ks` holds exactly the keys some block has. */
  ghost predicate KeysOf(blocks: seq<Element>, ks: seq<string>) {
    forall k :: k in ks <==> FirstAt(blocks, k) < |blocks|
  }

  /** `ks` lists keys in the order of their first occurrence among the blocks. */
  predicate InFirstOrder(blocks: seq<Element>, ks: seq<string>) {
    forall i, j :: 0 <= i < j < |ks| ==> FirstAt(blocks, ks[i]) < FirstAt(blocks, ks[j])
  }

  /** Reference definition: the keys of the blocks without repetitions, in
      the order of their first occurrence. */
  function FirstKeys(blocks: seq<Element>): (ks: seq<string>)
    ensures Distinct(ks) && KeysOf(blocks, ks) && InFirstOrder(blocks, ks)
    decreases |blocks|
  {
    if |blocks| == 0 then []
    else
      var ks := FirstKeys(blocks[..|blocks| - 1]);
      var k := BlockKey(blocks[|blocks| - 1]);
      FirstKeysStep(blocks, ks);
      if k in ks then ks else ks + [k]
  }

  /** The step of `FirstKeys`: the last block's key, when new, goes at the end. */
  lemma FirstKeysStep(blocks: seq<Element>, ks: seq<string>)
    requires |blocks| > 0
    requires var pre := blocks[..|blocks| - 1];
             Distinct(ks) && KeysOf(pre, ks) && InFirstOrder(pre, ks)
    ensures var k := BlockKey(blocks[|blocks| - 1]);
            var r := if k in ks then ks else ks + [k];
            Distinct(r) && KeysOf(blocks, r) && InFirstOrder(blocks, r)
  {
    var pre := blocks[..|blocks| - 1];
    var k := BlockKey(blocks[|blocks| - 1]);
    var r := if k in ks then ks else ks + [k];
    FirstAtExtend(blocks, k);
    forall u ensures u in r <==> FirstAt(blocks, u) < |blocks| {
      FirstAtExtend(blocks, u);
    }
    forall i, j | 0 <= i < j < |r| ensures r[i] != r[j] && FirstAt(blocks, r[i]) < FirstAt(blocks, r[j]) {
      FirstAtExtend(blocks, r[i]);
      FirstAtExtend(blocks, r[j]);
      if j < |ks| {
        assert r[i] == ks[i] && r[j] == ks[j];
      } else {
        assert r[i] == ks[i] && r[j] == k;
      }
    }
  }

  /** Reference definition: the last block carrying key `k`. */
  function LastWithKey(blocks: seq<Element>, k: string): (r: Option<Element>)
    ensures r.Some? ==> r.value in blocks && BlockKey(r.value) == k
    ensures r.None? <==> forall i :: 0 <= i < |blocks| ==> BlockKey(blocks[i]) != k
  {
    if |blocks| == 0 then None
    else if BlockKey(blocks[|blocks| - 1]) == k then Some(blocks[|blocks| - 1])
    else
      var r := LastWithKey(blocks[..|blocks| - 1], k);
      assert forall i :: 0 <= i < |blocks| - 1 ==> blocks[..|blocks| - 1][i] == blocks[i];
      r
  }

  /** Last write wins: the index holds, under each key, exactly the last
      block with that key, and nothing under a key no block has. */
  lemma {:induction false} IndexHoldsLastBlock(blocks: seq<Element>, k: string)
    ensures Find(IndexBlocks(blocks), k) == LastWithKey(blocks, k)
    decreases |blocks|
  {
    if |blocks| > 0 {
      var b := blocks[|blocks| - 1];
      IndexHoldsLastBlock(blocks[..|blocks| - 1], k);
      FindPut(IndexBlocks(blocks[..|blocks| - 1]), BlockKey(b), b, k);
    }
  }

  /** The index's keys come in the order in which the keys first occur
      among the blocks: overwriting a key keeps its place. */
  lemma {:induction false} IndexKeysInFirstOrder(blocks: seq<Element>)
    ensures Keys(IndexBlocks(blocks)) == FirstKeys(blocks)
    decreases |blocks|
  {
    if |blocks| > 0 {
      IndexKeysInFirstOrder(blocks[..|blocks| - 1]);
    }
  }

  /** Two blocks with the same target and parent: only the second survives. */
  lemma SecondBlockWins(first: Element, second: Element)
    requires BlockKey(first) == BlockKey(second)
    ensures IndexBlocks([first, second]) == [(BlockKey(second), second)]
  {
    var k := BlockKey(first);
    assert [first][..0] == [];
    assert IndexBlocks([first]) == Put([], k, first) == [(k, first)];
    assert [first, second][..1] == [first];
    assert IndexBlocks([first, second]) == Put([(k, first)], k, second);
    assert [(k, first)][1..] == [];
  }

  /** One more block is one more property assignment. */
  lemma IndexBlocksSnoc(blocks: seq<Element>, b: Element, all: seq<Element>)
    requires all == blocks + [b]
    ensures IndexBlocks(all) == Put(IndexBlocks(blocks), BlockKey(b), b)
  {
    assert all[..|all| - 1] == blocks;
  }

  /** Two blocks with different keys are both kept, in block order. */
  lemma DistinctBlocksInOrder(b1: Element, b2: Element)
    requires BlockKey(b1) != BlockKey(b2)
    ensures IndexBlocks([b1, b2]) == [(BlockKey(b1), b1), (BlockKey(b2), b2)]
  {
    var ka, kb := BlockKey(b1), BlockKey(b2);
    var none: seq<Element> := [];
    IndexBlocksSnoc(none, b1, [b1]);
    PutNewAppends([], ka, b1);
    IndexBlocksSnoc([b1], b2, [b1, b2]);
    PutNewAppends([(ka, b1)], kb, b2);
  }

  /** Blocks keyed A, B, A: the third block overwrites the first in the
      first place, ahead of B. */
  lemma OverwriteKeepsPlace(b1: Element, b2: Element, b3: Element)
    requires BlockKey(b1) == BlockKey(b3) != BlockKey(b2)
    ensures IndexBlocks([b1, b2, b3]) == [(BlockKey(b1), b3), (BlockKey(b2), b2)]
  {
    var two := [(BlockKey(b1), b1), (BlockKey(b2), b2)];
    DistinctBlocksInOrder(b1, b2);
    IndexBlocksSnoc([b1, b2], b3, [b1, b2, b3]);
    PutFirstInPlace(two, BlockKey(b3), b3);
    assert two[1..] == [(BlockKey(b2), b2)];
  }

  /** Splitting the key on '|' gives back the target and the normalised
      parent when neither contains '|'. */
  lemma KeySplitsBack(block: Element)
    requires KeySeparator !in TargetText(block)
    requires KeySeparator !in NormalizeParent(Attr(block, "parent"))
    ensures SplitFirstTwo(BlockKey(block), KeySeparator) == (TargetText(block), NormalizeParent(Attr(block, "parent")))
  {
    var p := NormalizeParent(Attr(block, "parent"));
    SplitJoined(TargetText(block), KeySeparator, p);
    assert p[..IndexOfChar(p, KeySeparator)] == p;
  }

  /** A parent containing '|' does not survive the split: the parent read
      back is cut at its first '|'. */
  lemma PipeInParentTruncates(block: Element)
    requires KeySeparator !in TargetText(block)
    requires KeySeparator in NormalizeParent(Attr(block, "parent"))
    ensures var p := NormalizeParent(Attr(block, "parent"));
            var r := SplitFirstTwo(BlockKey(block), KeySeparator);
            r.0 == TargetText(block) && |r.1| < |p| && r.1 == p[..|r.1|]
  {
    var p := NormalizeParent(Attr(block, "parent"));
    SplitJoined(TargetText(block), KeySeparator, p);
  }

  /** A target containing '|' does not survive the split either: the
      target read back is cut at its first '|'. */
  lemma PipeInTargetTruncates(block: Element)
    requires KeySeparator in TargetText(block)
    ensures var t := TargetText(block);
            var r := SplitFirstTwo(BlockKey(block), KeySeparator);
            |r.0| < |t| && r.0 == t[..|r.0|]
  {
    SplitCutsFirst(TargetText(block), KeySeparator, NormalizeParent(Attr(block, "parent")));
  }
}

=== FILE: items.dfy ===
/** The merge items of hooks/utils.js (`parsePreferences`,
    `parseConfigFiles`, `parseConfigXml`): for every target file, the list
    of changes to apply to it, mapped preferences first and config-file
    children after.

    The preference mapping table is not defined anywhere in
    hooks/utils.js; here it is a parameter.
 */
module MergeItems {
  import opened Wrappers
  import opened Seqs
  import opened JsStrings
  import opened Elements
  import opened Assoc
  import opened ConfigXml
  import opened ConfigIndex

  datatype ItemKind = PreferenceItem | ConfigFileItem

  /** `{parent, type, destination, data}`. */
  datatype MergeItem = MergeItem(parent: string, kind: ItemKind, destination: string, data: Element)

  /** Where a mapped preference goes: target file, parent selector and the
      attribute it sets. */
  datatype MappingRule = MappingRule(target: string, parent: string, destination: string)

  /** `preferenceMappingData`: platform, then preference name, to rule. */
  type MappingTable = map<string, map<string, MappingRule>>

  /** `configData`: target file name to its merge items. */
  type ConfigData = seq<(string, seq<MergeItem>)>

  /** `preference.attrib.name` used as a property key: a missing name is
      the key "undefined". Unlike the lookup, this key is case-sensitive. */
  function NameKey(p: Element): string {
    Attr(p, "name").GetOr("undefined")
  }

  /** The mapping rule for a preference, if the platform has a table and
      the table names it. */
  function RuleFor(mapping: MappingTable, platform: string, p: Element): Option<MappingRule> {
    if platform in mapping then Get(mapping[platform], NameKey(p)) else None
  }

  function PreferenceMergeItem(rule: MappingRule, p: Element): MergeItem {
    MergeItem(rule.parent, PreferenceItem, rule.destination, p)
  }

  /** `parsePreferences`: the `forEach` over the preferences, appending to
      `acc`. */
  function ParsePreferences(acc: ConfigData, prefs: seq<Element>, platform: string, mapping: MappingTable): (r: ConfigData)
    ensures Distinct(Keys(acc)) ==> Distinct(Keys(r))
    decreases |prefs|
  {
    if |prefs| == 0 then acc
    else
      var next := match RuleFor(mapping, platform, prefs[0])
        case None => acc
        case Some(rule) => Push(acc, rule.target, [PreferenceMergeItem(rule, prefs[0])]);
      ParsePreferences(next, prefs[1..], platform, mapping)
  }

  /** One item per child of a config-file block, in child order. */
  function ChildItems(block: Element, parent: string): (r: seq<MergeItem>)
    ensures |r| == |block.children|
    ensures forall i :: 0 <= i < |r| ==>
              r[i] == MergeItem(parent, ConfigFileItem, block.children[i].tag, block.children[i])
  {
    seq(|block.children|, i requires 0 <= i < |block.children| =>
      MergeItem(parent, ConfigFileItem, block.children[i].tag, block.children[i]))
  }

  /** The target and parent read back from an index key. */
  function KeyParts(key: string): (string, string)
    requires HasSeparator(key)
  {
    SplitFirstTwo(key, KeySeparator)
  }

  predicate KeysSplittable(index: seq<(string, Element)>) {
    forall i :: 0 <= i < |index| ==> HasSeparator(index[i].0)
  }

  predicate HasSeparator(key: string) {
    KeySeparator in key
  }

  /** `parseConfigFiles`: the `for…in` over the index, appending to what
      `parsePreferences` produced. */
  function ParseConfigFiles(acc: ConfigData, index: seq<(string, Element)>): (r: ConfigData)
    requires KeysSplittable(index)
    ensures Distinct(Keys(acc)) ==> Distinct(Keys(r))
    decreases |index|
  {
    if |index| == 0 then acc
    else
      var (key, block) := index[0];
      var (target, parent) := KeyParts(key);
      ParseConfigFiles(Push(acc, target, ChildItems(block, parent)), index[1..])
  }

  /** `parseConfigXml(platform)`. */
  function ParseConfigXml(config: Element, platform: string, mapping: MappingTable): (r: ConfigData)
    ensures Distinct(Keys(r))
  {
    ParseConfigFiles(
      ParsePreferences([], Preferences(config, platform), platform, mapping),
      ConfigFilesByTargetAndParent(config, platform))
  }

  // Reference definitions, one target at a time.

  /** The items the mapped preferences contribute to `target`, in
      preference order; unmapped preferences contribute nothing. */
  function PreferenceItemsFor(prefs: seq<Element>, platform: string, mapping: MappingTable, target: string): (r: seq<MergeItem>)
    ensures forall i :: 0 <= i < |r| ==> r[i].kind == PreferenceItem && r[i].data in prefs
                                          && RuleFor(mapping, platform, r[i].data).Some?
                                          && RuleFor(mapping, platform, r[i].data).value.target == target
  {
    if |prefs| == 0 then []
    else
      var here := match RuleFor(mapping, platform, prefs[0])
        case Some(rule) => if rule.target == target then [PreferenceMergeItem(rule, prefs[0])] else []
        case None => [];
      here + PreferenceItemsFor(prefs[1..], platform, mapping, target)
  }

  /** The items the indexed config-file blocks contribute to `target`, in
      index order. */
  function ConfigFileItemsFor(index: seq<(string, Element)>, target: string): (r: seq<MergeItem>)
    requires KeysSplittable(index)
    ensures forall i :: 0 <= i < |r| ==> r[i].kind == ConfigFileItem && r[i].destination == r[i].data.tag
  {
    if |index| == 0 then []
    else
      var (key, block) := index[0];
      var (t, parent) := KeyParts(key);
      (if t == target then ChildItems(block, parent) else []) + ConfigFileItemsFor(index[1..], target)
  }

  /** What `parsePreferences` appends under each target is exactly the
      reference list of mapped preference items for it. */
  lemma {:induction false} ParsePreferencesPerTarget(acc: ConfigData, prefs: seq<Element>, platform: string, mapping: MappingTable, target: string)
    ensures ListAt(ParsePreferences(acc, prefs, platform, mapping), target) ==
              ListAt(acc, target) + PreferenceItemsFor(prefs, platform, mapping, target)
    decreases |prefs|
  {
    if |prefs| > 0 {
      var next := match RuleFor(mapping, platform, prefs[0])
        case None => acc
        case Some(rule) => Push(acc, rule.target, [PreferenceMergeItem(rule, prefs[0])]);
      var here := match RuleFor(mapping, platform, prefs[0])
        case Some(rule) => if rule.target == target then [PreferenceMergeItem(rule, prefs[0])] else []
        case None => [];
      ParsePreferencesPerTarget(next, prefs[1..], platform, mapping, target);
      assert ListAt(next, target) == ListAt(acc, target) + here;
      Regroup(ListAt(ParsePreferences(acc, prefs, platform, mapping), target), ListAt(next, target), ListAt(acc, target),
              here, PreferenceItemsFor(prefs[1..], platform, mapping, target), PreferenceItemsFor(prefs, platform, mapping, target));
    } else {
      assert ListAt(acc, target) + [] == ListAt(acc, target);
    }
  }

  /** The contribution of the first index entry to one target. */
  function HeadItemsFor(index: seq<(string, Element)>, target: string): seq<MergeItem>
    requires |index| > 0 && HasSeparator(index[0].0)
  {
    var parts := KeyParts(index[0].0);
    if parts.0 == target then ChildItems(index[0].1, parts.1) else []
  }

  /** The accumulator after the first iteration of `parseConfigFiles`. */
  function HeadStep(acc: ConfigData, index: seq<(string, Element)>): ConfigData
    requires |index| > 0 && HasSeparator(index[0].0)
  {
    var parts := KeyParts(index[0].0);
    Push(acc, parts.0, ChildItems(index[0].1, parts.1))
  }

  lemma ParseConfigFilesUnfold(acc: ConfigData, index: seq<(string, Element)>, target: string)
    requires |index| > 0 && KeysSplittable(index)
    ensures KeysSplittable(index[1..])
    ensures ParseConfigFiles(acc, index) == ParseConfigFiles(HeadStep(acc, index), index[1..])
    ensures ListAt(HeadStep(acc, index), target) == ListAt(acc, target) + HeadItemsFor(index, target)
    ensures ConfigFileItemsFor(index, target) == HeadItemsFor(index, target) + ConfigFileItemsFor(index[1..], target)
  {
  }

  /** What `parseConfigFiles` appends under each target is exactly the
      reference list of config-file items for it. */
  lemma {:induction false} ParseConfigFilesPerTarget(acc: ConfigData, index: seq<(string, Element)>, target: string)
    requires KeysSplittable(index)
    ensures ListAt(ParseConfigFiles(acc, index), target) == ListAt(acc, target) + ConfigFileItemsFor(index, target)
    decreases |index|
  {
    if |index| > 0 {
      var next := HeadStep(acc, index);
      ParseConfigFilesUnfold(acc, index, target);
      ParseConfigFilesPerTarget(next, index[1..], target);
      Regroup(ListAt(ParseConfigFiles(acc, index), target), ListAt(next, target), ListAt(acc, target),
              HeadItemsFor(index, target), ConfigFileItemsFor(index[1..], target), ConfigFileItemsFor(index, target));
    } else {
      assert ListAt(acc, target) + [] == ListAt(acc, target);
    }
  }

  /** For every target, the items are the mapped preferences (in
      preference order) followed by the children of the indexed config-file
      blocks (in index order). */
  lemma ItemsPerTarget(config: Element, platform: string, mapping: MappingTable, target: string)
    ensures ListAt(ParseConfigXml(config, platform, mapping), target) ==
              PreferenceItemsFor(Preferences(config, platform), platform, mapping, target)
              + ConfigFileItemsFor(ConfigFilesByTargetAndParent(config, platform), target)
  {
    var prefs := Preferences(config, platform);
    var index := ConfigFilesByTargetAndParent(config, platform);
    var fromPrefs := ParsePreferences([], prefs, platform, mapping);
    var empty: seq<MergeItem> := ListAt([], target);
    assert empty == [];
    ParsePreferencesPerTarget([], prefs, platform, mapping, target);
    ParseConfigFilesPerTarget(fromPrefs, index, target);
    AppendAfterEmpty(ListAt(ParseConfigFiles(fromPrefs, index), target), ListAt(fromPrefs, target), empty,
                     PreferenceItemsFor(prefs, platform, mapping, target), ConfigFileItemsFor(index, target));
  }

  /** Within one target, no preference item comes after a config-file item. */
  lemma PreferencesBeforeConfigFiles(config: Element, platform: string, mapping: MappingTable, target: string, i: nat, j: nat)
    requires var items := ListAt(ParseConfigXml(config, platform, mapping), target);
             i < j < |items| && items[i].kind == ConfigFileItem
    ensures ListAt(ParseConfigXml(config, platform, mapping), target)[j].kind == ConfigFileItem
  {
    ItemsPerTarget(config, platform, mapping, target);
  }

  /** Where `updatePlatformConfig` sends a target's items. */
  datatype Dialect = PlistDialect | ManifestDialect | Unhandled

  function RouteTarget(platform: string, targetName: string): (r: Dialect)
    ensures r == ManifestDialect <==> platform == "android" && targetName == "AndroidManifest.xml"
    ensures r == PlistDialect <==> platform == "ios" && Contains(targetName, "Info.plist")
  {
    if platform == "ios" && Contains(targetName, "Info.plist") then PlistDialect
    else if platform == "android" && targetName == "AndroidManifest.xml" then ManifestDialect
    else Unhandled
  }

  /** Every iOS target named `<anything>Info.plist<anything>`, such as the
      project's `*-Info.plist`, goes to the plist merge. */
  lemma InfoPlistTargetsRouted(pre: string, post: string)
    ensures RouteTarget("ios", pre + "Info.plist" + post) == PlistDialect
  {
    ContainsInfix(pre, "Info.plist", post);
  }

  /** At most one target of a run is merged into the Android manifest, while
      several iOS targets may share the one Info.plist. */
  lemma ManifestRoutedOnce(config: Element, platform: string, mapping: MappingTable, i: nat, j: nat)
    requires var cd := ParseConfigXml(config, platform, mapping);
             i < |cd| && j < |cd|
             && RouteTarget(platform, cd[i].0) == ManifestDialect
             && RouteTarget(platform, cd[j].0) == ManifestDialect
    ensures i == j
  {
    var cd := ParseConfigXml(config, platform, mapping);
    assert Keys(cd)[i] == cd[i].0 && Keys(cd)[j] == cd[j].0;
  }
}

=== FILE: jsstrings.dfy ===
/** The few JavaScript string primitives the hooks rely on, written out:
    `String.prototype.trim`, the regular-expression class `\s`,
    `toLowerCase`, the relational operators on strings and `split`.
 */
module JsStrings {

  /** The characters JavaScript's `trim` removes and its `\s` matches:
      WhiteSpace (tab, vertical tab, form feed, space, no-break space,
      byte order mark and the space separators) and LineTerminator. */
  predicate IsJsSpace(c: char) {
    || c == '\t' || c == '\n' || c == '\U{000B}' || c == '\U{000C}' || c == '\r'
    || c == ' ' || c == '\U{00A0}' || c == '\U{1680}'
    || ('\U{2000}' <= c <= '\U{200A}')
    || c == '\U{2028}' || c == '\U{2029}' || c == '\U{202F}' || c == '\U{205F}'
    || c == '\U{3000}' || c == '\U{FEFF}'
  }

  predicate AllSpace(s: string) {
    forall i :: 0 <= i < |s| ==> IsJsSpace(s[i])
  }

  /** The text with every whitespace character dropped. */
  function Strip(s: string): (r: string)
    ensures |r| <= |s|
  {
    if |s| == 0 then "" else (if IsJsSpace(s[0]) then "" else [s[0]]) + Strip(s[1..])
  }

  lemma {:induction false} StripAppend(a: string, b: string)
    ensures Strip(a + b) == Strip(a) + Strip(b)
    decreases |a|
  {
    if |a| == 0 {
      assert a + b == b;
    } else {
      assert (a + b)[0] == a[0] && (a + b)[1..] == a[1..] + b;
      StripAppend(a[1..], b);
    }
  }

  lemma {:induction false} StripAllSpace(s: string)
    requires AllSpace(s)
    ensures Strip(s) == ""
    decreases |s|
  {
    if |s| > 0 {
      StripAllSpace(s[1..]);
    }
  }

  /** A run of whitespace between two texts disappears under `Strip`. */
  lemma StripDropsSpaceRun(a: string, w: string, b: string)
    requires AllSpace(w)
    ensures Strip(a + w + b) == Strip(a + b)
  {
    StripAppend(a + w, b);
    StripAppend(a, w);
    StripAllSpace(w);
    StripAppend(a, b);
  }

  /** Replacing the front of a text by one with the same non-space
      characters, and the rest likewise, keeps the non-space characters. */
  lemma StripReplaceParts(s: string, head: string, rest: string, head': string, rest': string)
    requires s == head + rest && Strip(head') == Strip(head) && Strip(rest') == Strip(rest)
    ensures Strip(head' + rest') == Strip(s)
  {
    StripAppend(head, rest);
    StripAppend(head', rest');
  }

  lemma AllSpaceAppend(a: string, b: string)
    requires AllSpace(a) && AllSpace(b)
    ensures AllSpace(a + b)
  {
    assert forall i :: 0 <= i < |a + b| ==> (a + b)[i] == if i < |a| then a[i] else b[i - |a|];
  }

  /** Number of leading whitespace characters. */
  function LeadingSpaces(s: string): (n: nat)
    ensures n <= |s|
    ensures AllSpace(s[..n])
    ensures n < |s| ==> !IsJsSpace(s[n])
  {
    if |s| == 0 || !IsJsSpace(s[0]) then 0 else 1 + LeadingSpaces(s[1..])
  }

  /** Number of trailing whitespace characters. */
  function TrailingSpaces(s: string): (n: nat)
    ensures n <= |s|
    ensures AllSpace(s[|s| - n..])
    ensures n < |s| ==> !IsJsSpace(s[|s| - n - 1])
  {
    if |s| == 0 || !IsJsSpace(s[|s| - 1]) then 0
    else
      var t := s[..|s| - 1];
      var m := TrailingSpaces(t);
      var tail := s[|s| - (m + 1)..];
      assert tail == t[|t| - m..] + [s[|s| - 1]];
      AllSpaceAppend(t[|t| - m..], [s[|s| - 1]]);
      assert m + 1 < |s| ==> s[|s| - m - 2] == t[|t| - m - 1];
      1 + m
  }

  /** `s.trim()`: the slice of `s` left after removing whitespace at both ends. */
  function Trim(s: string): (r: string)
    ensures |r| == 0 || (!IsJsSpace(r[0]) && !IsJsSpace(r[|r| - 1]))
    ensures |r| == 0 <==> AllSpace(s)
    ensures exists i, j :: 0 <= i <= j <= |s| && r == s[i..j] && AllSpace(s[..i]) && AllSpace(s[j..])
  {
    var i := LeadingSpaces(s);
    var rest := s[i..];
    var j := |rest| - TrailingSpaces(rest);
    assert s[i..][j..] == s[i + j..];
    assert s[..i + j][i..] == s[i..][..j];
    if |rest[..j]| == 0 then
      assert s[..i] == s;
      rest[..j]
    else
      assert !AllSpace(s) by { assert s[i] == rest[0]; }
      rest[..j]
  }

  /** JavaScript truthiness of `s && s.trim()` for a string `s`. */
  predicate Nonblank(s: string) {
    |Trim(s)| > 0
  }

  /** `toLowerCase` restricted to ASCII letters. */
  function LowerChar(c: char): char {
    if 'A' <= c <= 'Z' then (c as int + 32) as char else c
  }

  function Lower(s: string): (r: string)
    ensures |r| == |s|
    ensures forall i :: 0 <= i < |s| ==> r[i] == LowerChar(s[i])
  {
    seq(|s|, i requires 0 <= i < |s| => LowerChar(s[i]))
  }

  /** `a < b` on JavaScript strings: lexicographic by character, a proper
      prefix being smaller. (JavaScript compares UTF-16 code units; the two
      orders agree on the basic multilingual plane.) */
  predicate LexLess(a: string, b: string)
    decreases |a|
  {
    if |b| == 0 then false
    else if |a| == 0 then true
    else if a[0] != b[0] then a[0] < b[0]
    else LexLess(a[1..], b[1..])
  }

  /** `a >= b` on JavaScript strings. */
  predicate LexAtLeast(a: string, b: string) {
    !LexLess(a, b)
  }

  /** `s.indexOf(t) > -1`. */
  predicate Contains(s: string, t: string)
    decreases |s|
  {
    t <= s || (|s| > 0 && Contains(s[1..], t))
  }

  /** A text contains whatever was written into it. */
  lemma {:induction false} ContainsInfix(pre: string, t: string, post: string)
    ensures Contains(pre + t + post, t)
    decreases |pre|
  {
    var s := pre + t + post;
    if |pre| == 0 {
      assert s == t + post;
    } else {
      ContainsInfix(pre[1..], t, post);
      assert s[1..] == pre[1..] + t + post;
    }
  }

  /** Index of the first occurrence of `c`, or `|s|` when there is none. */
  function IndexOfChar(s: string, c: char): (n: nat)
    ensures n <= |s|
    ensures c !in s[..n]
    ensures n < |s| <==> c in s
    ensures n < |s| ==> s[n] == c
  {
    if |s| == 0 then 0
    else if s[0] == c then 0
    else
      var n := 1 + IndexOfChar(s[1..], c);
      assert s[..n] == [s[0]] + s[1..][..n - 1];
      n
  }

  /** `s.split(sep)[0]` and `s.split(sep)[1]` for a string that contains
      `sep`: the text before the first separator, and the text between the
      first separator and the next one (or the end). */
  function SplitFirstTwo(s: string, sep: char): (r: (string, string))
    requires sep in s
    ensures sep !in r.0 && sep !in r.1
    ensures |r.0| + 1 + |r.1| <= |s|
    ensures s[..|r.0|] == r.0 && s[|r.0|] == sep
    ensures s[|r.0| + 1..][..|r.1|] == r.1
  {
    var i := IndexOfChar(s, sep);
    var rest := s[i + 1..];
    var j := IndexOfChar(rest, sep);
    (s[..i], rest[..j])
  }

  /** Searching past a stretch without `c`. */
  lemma {:induction false} IndexOfCharSkip(t: string, u: string, c: char)
    requires c !in t
    ensures IndexOfChar(t + u, c) == |t| + IndexOfChar(u, c)
    decreases |t|
  {
    if |t| > 0 {
      assert (t + u)[0] == t[0];
      assert (t + u)[1..] == t[1..] + u;
      IndexOfCharSkip(t[1..], u, c);
    } else {
      assert t + u == u;
    }
  }

  /** Splitting `t + sep + p` where `t` has no separator: the first part is
      `t`, the second is `p` up to its first separator. */
  lemma SplitJoined(t: string, sep: char, p: string)
    requires sep !in t
    ensures sep in t + [sep] + p
    ensures SplitFirstTwo(t + [sep] + p, sep) == (t, p[..IndexOfChar(p, sep)])
  {
    var s := t + [sep] + p;
    assert s[|t|] == sep;
    IndexOfCharSkip(t, [sep] + p, sep);
    assert s == t + ([sep] + p);
    assert IndexOfChar([sep] + p, sep) == 0;
    assert s[..|t|] == t;
    assert s[|t| + 1..] == p;
  }

  /** Searching a text whose first part already holds `c` stops inside that
      part. */
  lemma {:induction false} IndexOfCharPrefix(t: string, u: string, c: char)
    requires c in t
    ensures IndexOfChar(t + u, c) == IndexOfChar(t, c)
    decreases |t|
  {
    assert (t + u)[0] == t[0];
    if t[0] != c {
      assert (t + u)[1..] == t[1..] + u;
      IndexOfCharPrefix(t[1..], u, c);
    }
  }

  /** Splitting `t + sep + p` where `t` holds a separator: the first part
      is `t` cut at its first separator. */
  lemma SplitCutsFirst(t: string, sep: char, p: string)
    requires sep in t
    ensures sep in t + [sep] + p
    ensures var r := SplitFirstTwo(t + [sep] + p, sep);
            |r.0| < |t| && r.0 == t[..|r.0|]
  {
    var s := t + [sep] + p;
    assert s == t + ([sep] + p);
    IndexOfCharPrefix(t, [sep] + p, sep);
    var i := IndexOfChar(t, sep);
    assert s[..i] == t[..i];
  }
}

=== FILE: manifest.dfy ===
/** The merge loop of `updateAndroidManifest` (hooks/utils.js): every merge
    item of the AndroidManifest.xml target is applied to the parsed
    manifest in order.

    The tree is a value; the nodes the JavaScript holds references to are
    held as paths. The elementtree `find` used to resolve an item's parent
    selector is a parameter (`Finder`); the main-activity search and the
    child lookup are spelled out.
 */
module AndroidManifest {
  import opened Wrappers
  import opened Elements
  import opened MergeItems

  /** The parent selector that stands for the main activity. */
  const MainActivityToken: string := "__cordovaMainActivity__"

  const MainAction: string := "android.intent.action.MAIN"

  /** `<action android:name="android.intent.action.MAIN">`. */
  predicate IsMainAction(a: Element) {
    a.tag == "action" && Attr(a, "android:name") == Some(MainAction)
  }

  /** An `<activity>` with an `<intent-filter>` holding the MAIN action. */
  predicate HasMainFilter(act: Element) {
    act.tag == "activity"
    && exists f :: f in act.children && f.tag == "intent-filter" && exists a :: a in f.children && IsMainAction(a)
  }

  /** Index of the main activity among the children of an `<application>`. */
  function MainIn(app: Element): Option<nat> {
    if app.tag == "application" then FirstIndex(app.children, HasMainFilter) else None
  }

  predicate HasMain(app: Element) {
    MainIn(app).Some?
  }

  /** `root.find("application/activity/intent-filter/action[@android:name=
      'android.intent.action.MAIN']/../..")`: the first activity, in
      document order, of the first application that has one with a MAIN
      intent filter. */
  function MainActivity(root: Element): (r: Option<Path>)
    ensures r.Some? ==>
              && |r.value| == 2 && r.value[0] < |root.children|
              && r.value[1] < |root.children[r.value[0]].children|
              && ValidPath(root, r.value)
              && At(root, r.value) == root.children[r.value[0]].children[r.value[1]]
              && root.children[r.value[0]].tag == "application"
              && HasMainFilter(At(root, r.value))
              && (forall i :: 0 <= i < r.value[0] ==> !HasMain(root.children[i]))
              && (forall j :: 0 <= j < r.value[1] ==> !HasMainFilter(root.children[r.value[0]].children[j]))
    ensures r.None? <==> forall i :: 0 <= i < |root.children| ==> !HasMain(root.children[i])
  {
    match FirstIndex(root.children, HasMain)
    case None => None
    case Some(i) =>
      var app := root.children[i];
      var j := MainIn(app).value;
      ExtendPath(root, [], i);
      assert [] + [i] == [i] && [i] + [j] == [i, j];
      ExtendPath(root, [i], j);
      Some([i, j])
  }

  /** An elementtree `find` on the manifest: given the root and a selector,
      the path of the first match, if any. */
  type Finder = f: (Element, string) -> Option<Path> | forall e, sel :: f(e, sel).Some? ==> ValidPath(e, f(e, sel).value)
    witness (e: Element, sel: string) => None

  /** The manifest being edited: the tree, where the main activity found
      before the loop is (`None` once that node is no longer in the tree),
      and the `_id` the next created element gets. */
  datatype ManifestState = ManifestState(root: Element, main: Option<Path>, nextId: nat)

  predicate Inv(st: ManifestState) {
    st.main.Some? ==> ValidPath(st.root, st.main.value)
  }

  // The main activity for the token, otherwise `root.find(item.parent)`,
  // falling back to the same selector with the prefix "*/".
  function ResolveParent(st: ManifestState, parent: string, find: Finder): (r: Option<Path>)
    requires Inv(st)
    ensures r.Some? ==> ValidPath(st.root, r.value)
    ensures parent == MainActivityToken ==> r == st.main
  {
    if parent == MainActivityToken then st.main
    else
      match find(st.root, parent)
      case Some(p) => Some(p)
      case None => find(st.root, "*/" + parent)
  }

  /** `data.attrib['android:name']` as the selector text sees it. */
  function PermissionName(data: Element): string {
    Attr(data, "android:name").GetOr("undefined")
  }

  /** `parentEl.find(childSelector)` for a config-file item: a
      `uses-permission` child with the same `android:name`, or any child
      with the destination tag. */
  predicate ChildMatches(item: MergeItem, c: Element) {
    if item.destination == "uses-permission" then
      c.tag == "uses-permission" && Attr(c, "android:name") == Some(PermissionName(item.data))
    else c.tag == item.destination
  }

  function MatchingChild(item: MergeItem, parent: Element): (r: Option<nat>)
    ensures r.Some? ==> r.value < |parent.children| && ChildMatches(item, parent.children[r.value])
    ensures r.Some? ==> forall j :: 0 <= j < r.value ==> !ChildMatches(item, parent.children[j])
    ensures r.None? <==> forall j :: 0 <= j < |parent.children| ==> !ChildMatches(item, parent.children[j])
  {
    FirstIndex(parent.children, (c: Element) => ChildMatches(item, c))
  }

  /** `parentEl.attrib[destination] = data.attrib['value']`. */
  function SetAttribute(parent: Element, dest: string, value: Option<string>): (r: Element)
    ensures Attr(r, dest) == value
    ensures forall k :: k != dest ==> Attr(r, k) == Attr(parent, k)
    ensures r.(attrib := parent.attrib) == parent
  {
    match value
    case Some(v) => parent.(attrib := parent.attrib[dest := v])
    case None => parent.(attrib := parent.attrib - {dest})
  }

  /** The merged child: every property of `data` except its `_id`. */
  function Copied(data: Element, id: nat): Element {
    data.(id := id)
  }

  /** One iteration of `configItems.forEach`. */
  function ApplyItem(st: ManifestState, item: MergeItem, find: Finder): (r: ManifestState)
    requires Inv(st)
    ensures Inv(r)
    ensures ResolveParent(st, item.parent, find).None? ==> r == st
  {
    match ResolveParent(st, item.parent, find)
    case None => st
    case Some(pp) =>
      var parent := At(st.root, pp);
      if item.kind == PreferenceItem then
        var n := SetAttribute(parent, item.destination, Attr(item.data, "value"));
        var r := st.(root := Replace(st.root, pp, n));
        assert Inv(r) by { if st.main.Some? { GrowKeepsPath(st.root, pp, n, st.main.value); } }
        r
      else
        match MatchingChild(item, parent)
        case Some(ci) =>
          ExtendPath(st.root, pp, ci);
          var cp := pp + [ci];
          var n := Copied(item.data, parent.children[ci].id);
          var main := if st.main.Some? && StrictPrefix(cp, st.main.value) then None else st.main;
          var r := ManifestState(Replace(st.root, cp, n), main, st.nextId);
          assert Inv(r) by { if main.Some? { ReplaceKeepsPath(st.root, cp, n, main.value); } }
          r
        case None =>
          var n := parent.(children := parent.children + [Copied(item.data, st.nextId)]);
          var r := ManifestState(Replace(st.root, pp, n), st.main, st.nextId + 1);
          assert Inv(r) by { if st.main.Some? { GrowKeepsPath(st.root, pp, n, st.main.value); } }
          r
  }

  /** The whole `forEach`. */
  function ApplyItems(st: ManifestState, items: seq<MergeItem>, find: Finder): (r: ManifestState)
    requires Inv(st)
    ensures Inv(r)
    ensures SameRootNode(r.root, st.root)
    ensures st.nextId <= r.nextId <= st.nextId + |items|
    decreases |items|
  {
    if |items| == 0 then st
    else
      ApplyKeepsRootNode(st, items[0], find);
      ApplyItems(ApplyItem(st, items[0], find), items[1..], find)
  }

  /** The document element is edited in place, never replaced: its tag,
      `_id`, text and tail stay. */
  predicate SameRootNode(a: Element, b: Element) {
    a.tag == b.tag && a.id == b.id && a.text == b.text && a.tail == b.tail
  }

  /** `updateAndroidManifest` without the file I/O: the manifest after the
      merge. `firstId` is the `_id` the element library hands out next. */
  function UpdateAndroidManifest(root: Element, items: seq<MergeItem>, find: Finder, firstId: nat): (r: Element)
    ensures |items| == 0 ==> r == root
    ensures SameRootNode(r, root)
  {
    ApplyItems(ManifestState(root, MainActivity(root), firstId), items, find).root
  }

  // What one item does to its parent node, and the proofs that the merge
  // touches nothing else.

  /** The parent node after one item: an attribute set or removed, a child
      replaced wholesale (keeping its `_id`), or a new child appended. */
  function MergeInto(parent: Element, item: MergeItem, nextId: nat): (r: Element)
    ensures r.tag == parent.tag && r.text == parent.text && r.tail == parent.tail && r.id == parent.id
    ensures item.kind == PreferenceItem ==> r.children == parent.children
    ensures item.kind != PreferenceItem ==>
              && r.attrib == parent.attrib
              && |parent.children| <= |r.children| <= |parent.children| + 1
              && forall j :: 0 <= j < |parent.children| && !ChildMatches(item, parent.children[j]) ==> r.children[j] == parent.children[j]
  {
    if item.kind == PreferenceItem then SetAttribute(parent, item.destination, Attr(item.data, "value"))
    else
      match MatchingChild(item, parent)
      case Some(ci) => parent.(children := parent.children[ci := Copied(item.data, parent.children[ci].id)])
      case None => parent.(children := parent.children + [Copied(item.data, nextId)])
  }

  /** An item with a resolved parent replaces the parent node by
      `MergeInto` of it, and only that. */
  lemma ApplyIsLocal(st: ManifestState, item: MergeItem, find: Finder, pp: Path)
    requires Inv(st) && ResolveParent(st, item.parent, find) == Some(pp)
    ensures ApplyItem(st, item, find).root == Replace(st.root, pp, MergeInto(At(st.root, pp), item, st.nextId))
  {
    var parent := At(st.root, pp);
    if item.kind != PreferenceItem {
      match MatchingChild(item, parent)
      case Some(ci) =>
        ReplaceChild(st.root, pp, ci, Copied(item.data, parent.children[ci].id));
      case None =>
    }
  }

  /** Nothing outside the parent's subtree and off its ancestor line
      changes. */
  lemma ApplyLeavesRestAlone(st: ManifestState, item: MergeItem, find: Finder, pp: Path, q: Path)
    requires Inv(st) && ResolveParent(st, item.parent, find) == Some(pp)
    requires ValidPath(st.root, q) && Disjoint(q, pp)
    ensures ValidPath(ApplyItem(st, item, find).root, q)
    ensures At(ApplyItem(st, item, find).root, q) == At(st.root, q)
  {
    ApplyIsLocal(st, item, find, pp);
    ReplaceDisjoint(st.root, pp, MergeInto(At(st.root, pp), item, st.nextId), q);
  }

  /** The parent's ancestors keep their own fields and their number of
      children: the merge writes only below the resolved parent. */
  lemma ApplyKeepsAncestors(st: ManifestState, item: MergeItem, find: Finder, pp: Path, q: Path)
    requires Inv(st) && ResolveParent(st, item.parent, find) == Some(pp)
    requires StrictPrefix(q, pp)
    ensures ValidPath(st.root, q) && ValidPath(ApplyItem(st, item, find).root, q)
    ensures Shell(At(ApplyItem(st, item, find).root, q)) == Shell(At(st.root, q))
  {
    ApplyIsLocal(st, item, find, pp);
    ReplaceAncestor(st.root, pp, MergeInto(At(st.root, pp), item, st.nextId), q);
  }

  /** One item keeps the document element's own identity, and hands out at
      most one new `_id`. */
  lemma ApplyKeepsRootNode(st: ManifestState, item: MergeItem, find: Finder)
    requires Inv(st)
    ensures SameRootNode(ApplyItem(st, item, find).root, st.root)
    ensures st.nextId <= ApplyItem(st, item, find).nextId <= st.nextId + 1
  {
    match ResolveParent(st, item.parent, find)
    case None =>
    case Some(pp) =>
      ApplyIsLocal(st, item, find, pp);
      if |pp| > 0 {
        ApplyKeepsAncestors(st, item, find, pp, []);
      }
  }

  /** A preference item writes exactly `attrib[destination]`, with the raw
      `value` attribute (never the `default`); the rest of the parent stays. */
  lemma PreferenceSetsOneAttribute(st: ManifestState, item: MergeItem, find: Finder, pp: Path)
    requires Inv(st) && ResolveParent(st, item.parent, find) == Some(pp)
    requires item.kind == PreferenceItem
    ensures var r := ApplyItem(st, item, find).root;
            && ValidPath(r, pp)
            && Attr(At(r, pp), item.destination) == Attr(item.data, "value")
            && (forall k :: k != item.destination ==> Attr(At(r, pp), k) == Attr(At(st.root, pp), k))
            && At(r, pp).(attrib := At(st.root, pp).attrib) == At(st.root, pp)
  {
    ApplyIsLocal(st, item, find, pp);
  }

  /** A config-file item whose child exists replaces the first matching
      child wholesale, keeping only that child's `_id`. */
  lemma ConfigReplacesFirstMatch(st: ManifestState, item: MergeItem, find: Finder, pp: Path, ci: nat)
    requires Inv(st) && ResolveParent(st, item.parent, find) == Some(pp)
    requires item.kind == ConfigFileItem && MatchingChild(item, At(st.root, pp)) == Some(ci)
    ensures var r := ApplyItem(st, item, find).root;
            && ValidPath(r, pp)
            && At(r, pp).children == At(st.root, pp).children[ci := Copied(item.data, At(st.root, pp).children[ci].id)]
  {
    ApplyIsLocal(st, item, find, pp);
  }

  /** A config-file item whose child is missing appends it, with a fresh `_id`. */
  lemma ConfigAppendsWhenMissing(st: ManifestState, item: MergeItem, find: Finder, pp: Path)
    requires Inv(st) && ResolveParent(st, item.parent, find) == Some(pp)
    requires item.kind == ConfigFileItem && MatchingChild(item, At(st.root, pp)).None?
    ensures var r := ApplyItem(st, item, find);
            && ValidPath(r.root, pp)
            && At(r.root, pp).children == At(st.root, pp).children + [Copied(item.data, st.nextId)]
            && r.nextId == st.nextId + 1
  {
    ApplyIsLocal(st, item, find, pp);
  }

  /** A config-file item that its own child lookup finds again once merged:
      its destination is its tag and, for a permission, it carries its
      `android:name`. Every item `parseConfigFiles` builds from a named
      element meets this. */
  predicate FindsItself(item: MergeItem) {
    item.kind == ConfigFileItem ==>
      item.destination == item.data.tag
      && (item.destination == "uses-permission" ==> Attr(item.data, "android:name").Some?)
  }

  /** Applying an item to its own result changes nothing more. */
  lemma MergeIntoIdempotent(parent: Element, item: MergeItem, id1: nat, id2: nat)
    requires FindsItself(item)
    ensures MergeInto(MergeInto(parent, item, id1), item, id2) == MergeInto(parent, item, id1)
  {
    var once := MergeInto(parent, item, id1);
    if item.kind == PreferenceItem {
      var v := Attr(item.data, "value");
      if v.Some? {
        assert once.attrib[item.destination := v.value] == once.attrib;
      } else {
        assert once.attrib - {item.destination} == once.attrib;
      }
    } else {
      match MatchingChild(item, parent)
      case Some(ci) =>
        var c := Copied(item.data, parent.children[ci].id);
        assert once.children[ci] == c && ChildMatches(item, c);
        assert forall j :: 0 <= j < ci ==> once.children[j] == parent.children[j];
        assert MatchingChild(item, once) == Some(ci);
        assert once.children[ci := c] == once.children;
      case None =>
        var n := |parent.children|;
        var c := Copied(item.data, id1);
        assert once.children[n] == c && ChildMatches(item, c);
        assert forall j :: 0 <= j < n ==> once.children[j] == parent.children[j];
        assert MatchingChild(item, once) == Some(n);
        assert once.children[n := c] == once.children;
    }
  }

  /** Applying the same item twice gives the tree applying it once gives,
      provided its parent selector resolves to the same node the second
      time. */
  lemma ApplyIdempotent(st: ManifestState, item: MergeItem, find: Finder)
    requires Inv(st) && FindsItself(item)
    requires ResolveParent(ApplyItem(st, item, find), item.parent, find) == ResolveParent(st, item.parent, find)
    ensures ApplyItem(ApplyItem(st, item, find), item, find).root == ApplyItem(st, item, find).root
  {
    var once := ApplyItem(st, item, find);
    match ResolveParent(st, item.parent, find)
    case None =>
    case Some(pp) =>
      ApplyIsLocal(st, item, find, pp);
      ApplyIsLocal(once, item, find, pp);
      var n := MergeInto(At(st.root, pp), item, st.nextId);
      MergeIntoIdempotent(At(st.root, pp), item, st.nextId, once.nextId);
      ReplaceSame(once.root, pp);
  }

  /** The main activity is still where it was after an item aimed at it:
      the merge never replaces one of its ancestors. */
  lemma MainActivityItemKeepsMain(st: ManifestState, item: MergeItem, find: Finder)
    requires Inv(st) && item.parent == MainActivityToken
    ensures ApplyItem(st, item, find).main == st.main
  {
    match st.main
    case None =>
    case Some(pp) =>
      if item.kind != PreferenceItem {
        match MatchingChild(item, At(st.root, pp))
        case Some(ci) => assert !StrictPrefix(pp + [ci], pp);
        case None =>
      }
  }

  /** Items aimed at the main activity are idempotent outright. */
  lemma MainActivityItemIdempotent(st: ManifestState, item: MergeItem, find: Finder)
    requires Inv(st) && FindsItself(item) && item.parent == MainActivityToken
    ensures ApplyItem(ApplyItem(st, item, find), item, find).root == ApplyItem(st, item, find).root
  {
    MainActivityItemKeepsMain(st, item, find);
    ApplyIdempotent(st, item, find);
  }

  /** `data` sits among the children, up to its `_id`. */
  predicate HasCopyOf(parent: Element, data: Element) {
    exists c :: c in parent.children && c == data.(id := c.id)
  }

  /** After a config-file item the parent holds a copy of its element, and
      every child the item's lookup did not match is still there. */
  lemma ConfigItemLands(st: ManifestState, item: MergeItem, find: Finder, pp: Path)
    requires Inv(st) && ResolveParent(st, item.parent, find) == Some(pp)
    requires item.kind == ConfigFileItem
    ensures var r := ApplyItem(st, item, find).root;
            && ValidPath(r, pp)
            && HasCopyOf(At(r, pp), item.data)
            && forall c :: c in At(st.root, pp).children && !ChildMatches(item, c) ==> c in At(r, pp).children
  {
    ApplyIsLocal(st, item, find, pp);
    var parent := At(st.root, pp);
    var after := MergeInto(parent, item, st.nextId);
    match MatchingChild(item, parent)
    case Some(ci) =>
      var c := Copied(item.data, parent.children[ci].id);
      assert after.children[ci] == c;
      forall d | d in parent.children && !ChildMatches(item, d) ensures d in after.children {
        var j :| 0 <= j < |parent.children| && parent.children[j] == d;
        assert after.children[j] == d;
      }
    case None =>
      var c := Copied(item.data, st.nextId);
      assert after.children[|parent.children|] == c;
  }

  /** A copy of a permission element with another name survives a
      `uses-permission` item. */
  lemma OtherPermissionSurvives(st: ManifestState, item: MergeItem, find: Finder, pp: Path, d: Element)
    requires Inv(st) && ResolveParent(st, item.parent, find) == Some(pp)
    requires item.kind == ConfigFileItem && item.destination == "uses-permission"
    requires Attr(d, "android:name") != Some(PermissionName(item.data))
    requires HasCopyOf(At(st.root, pp), d)
    ensures ValidPath(ApplyItem(st, item, find).root, pp)
    ensures HasCopyOf(At(ApplyItem(st, item, find).root, pp), d)
  {
    ConfigItemLands(st, item, find, pp);
    var c :| c in At(st.root, pp).children && c == d.(id := c.id);
    assert !ChildMatches(item, c);
  }

  lemma ApplyTwo(st: ManifestState, i1: MergeItem, i2: MergeItem, find: Finder)
    requires Inv(st)
    ensures ApplyItems(st, [i1, i2], find) == ApplyItem(ApplyItem(st, i1, find), i2, find)
  {
    var s1 := ApplyItem(st, i1, find);
    assert [i1, i2][1..] == [i2] && [i2][1..] == [];
    assert ApplyItems(st, [i1, i2], find) == ApplyItems(s1, [i2], find);
    assert ApplyItems(s1, [i2], find) == ApplyItems(ApplyItem(s1, i2, find), [], find);
  }

  /** Two `uses-permission` items with different names under the same
      parent both end up in the manifest: the second one's lookup never
      selects the first one's element. */
  lemma DistinctPermissionsBothKept(st: ManifestState, i1: MergeItem, i2: MergeItem, find: Finder, pp: Path)
    requires Inv(st)
    requires i1.kind == ConfigFileItem && i2.kind == ConfigFileItem
    requires i2.destination == "uses-permission"
    requires Attr(i1.data, "android:name").Some? && Attr(i2.data, "android:name").Some?
    requires Attr(i1.data, "android:name") != Attr(i2.data, "android:name")
    requires ResolveParent(st, i1.parent, find) == Some(pp)
    requires ResolveParent(ApplyItem(st, i1, find), i2.parent, find) == Some(pp)
    ensures var r := ApplyItems(st, [i1, i2], find).root;
            ValidPath(r, pp) && HasCopyOf(At(r, pp), i1.data) && HasCopyOf(At(r, pp), i2.data)
  {
    var s1 := ApplyItem(st, i1, find);
    ConfigItemLands(st, i1, find, pp);
    OtherPermissionSurvives(s1, i2, find, pp, i1.data);
    ConfigItemLands(s1, i2, find, pp);
    ApplyTwo(st, i1, i2, find);
  }
}

=== FILE: plist.dfy ===
/** The merge loop of `updateIosPlist` (hooks/utils.js): every merge item of
    an Info.plist target becomes a one-key plist document, is parsed, and its
    value replaces the Info.plist entry under the item's parent key. The
    rebuilt document then has every whitespace-only `<string>` element
    emptied.

    The plist library's `parse` and `build` are parameters; values are of a
    type parameter `V`.
 */
module IosPlist {
  import opened Wrappers
  import opened Seqs
  import opened JsStrings
  import opened XmlString
  import opened MergeItems

  /** `plist.parse`: the top-level dictionary, or `None` where it throws. */
  type PlistParser<V> = string -> Option<map<string, V>>

  /** `'<plist><dict><key>' + key + '</key>' + eltreeToXmlString(item.data) +
      '</dict></plist>'`. */
  function Fragment(item: MergeItem): (r: string)
    ensures FragmentHead(item.parent) <= r
    ensures Renderable(item.data) ==>
              ParseElem(r[|FragmentHead(item.parent)|..]) == Some((Project(item.data), FragmentTail))
  {
    var r := FragmentHead(item.parent) + Serialise(item.data) + FragmentTail;
    assert r[|FragmentHead(item.parent)|..] == Serialise(item.data) + FragmentTail;
    assert Renderable(item.data) ==>
             ParseElem(Serialise(item.data) + FragmentTail) == Some((Project(item.data), FragmentTail)) by {
      if Renderable(item.data) {
        SerialiseRoundTrip(item.data, FragmentTail);
      }
    }
    r
  }

  /** The text of a fragment up to its value: the key is the item's parent. */
  function FragmentHead(key: string): string {
    "<plist><dict><key>" + key + "</key>"
  }

  const FragmentTail: string := "</dict></plist>"

  /** `infoPlist[key] = configPlistObj[key]`: a key the fragment does not
      define reads `undefined` there, and the entry is dropped. */
  function AssignKey<V>(info: map<string, V>, key: string, obj: map<string, V>): (r: map<string, V>)
    ensures Get(r, key) == Get(obj, key)
    ensures forall k :: k != key ==> Get(r, k) == Get(info, k)
  {
    if key in obj then info[key := obj[key]] else info - {key}
  }

  /** `configItems.forEach(...)` over the parsed Info.plist: `None` when
      parsing one of the fragments throws, which abandons the whole update.
      The loop completes exactly when every fragment parses. */
  function MergePlist<V>(info: map<string, V>, items: seq<MergeItem>, parse: PlistParser<V>): (r: Option<map<string, V>>)
    ensures r.Some? <==> forall i :: 0 <= i < |items| ==> parse(Fragment(items[i])).Some?
    decreases |items|
  {
    if |items| == 0 then Some(info)
    else
      match parse(Fragment(items[0]))
      case None => None
      case Some(obj) =>
        assert forall i :: 0 < i < |items| ==> items[i] == items[1..][i - 1];
        MergePlist(AssignKey(info, items[0].parent, obj), items[1..], parse)
  }

  /** Reference: the index of the last item whose parent is `key`. */
  function LastWithParent(items: seq<MergeItem>, key: string): (r: Option<nat>)
    ensures r.Some? ==> r.value < |items| && items[r.value].parent == key
    ensures r.Some? ==> forall j :: r.value < j < |items| ==> items[j].parent != key
    ensures r.None? <==> forall j :: 0 <= j < |items| ==> items[j].parent != key
    decreases |items|
  {
    if |items| == 0 then None
    else
      match LastWithParent(items[1..], key)
      case Some(j) => Some(j + 1)
      case None => if items[0].parent == key then Some(0) else None
  }

  /** Reference: the entry under `key` after the merge, read off the last
      item with that parent, or the file's own entry when there is none. */
  function FinalEntry<V>(info: map<string, V>, items: seq<MergeItem>, parse: PlistParser<V>, key: string): Option<V> {
    match LastWithParent(items, key)
    case None => Get(info, key)
    case Some(j) =>
      match parse(Fragment(items[j]))
      case None => None
      case Some(obj) => Get(obj, key)
  }

  /** Last write wins and nothing else changes: after a successful merge
      every key holds what the last item with that parent put there, and a
      key no item names keeps its original entry. */
  lemma {:induction false} MergeEntries<V>(info: map<string, V>, items: seq<MergeItem>, parse: PlistParser<V>, key: string)
    requires MergePlist(info, items, parse).Some?
    ensures Get(MergePlist(info, items, parse).value, key) == FinalEntry(info, items, parse, key)
    decreases |items|
  {
    if |items| > 0 {
      var obj := parse(Fragment(items[0])).value;
      var next := AssignKey(info, items[0].parent, obj);
      MergeEntries(next, items[1..], parse, key);
      match LastWithParent(items[1..], key)
      case Some(j) =>
        assert items[1..][j] == items[j + 1];
      case None =>
    }
  }

  /** A key that no item names keeps its entry. */
  lemma UntouchedKeysKept<V>(info: map<string, V>, items: seq<MergeItem>, parse: PlistParser<V>, key: string)
    requires MergePlist(info, items, parse).Some?
    requires forall i :: 0 <= i < |items| ==> items[i].parent != key
    ensures key in MergePlist(info, items, parse).value <==> key in info
    ensures key in info ==> MergePlist(info, items, parse).value[key] == info[key]
  {
    MergeEntries(info, items, parse, key);
  }

  // The `<string>` rewrite:
  // `replace(/<string>[\s\r\n]*<\/string>/g, '<string></string>')`.

  const StringOpen: string := "<string>"
  const StringClose: string := "</string>"
  const EmptyString: string := "<string></string>"

  /** The whitespace run at the front of `s` is followed by `</string>`. */
  predicate CloseAfterSpaces(s: string) {
    StringClose <= s[LeadingSpaces(s)..]
  }

  /** Length of the match of the pattern at the front of `s`, if it matches
      there: `<string>`, then whitespace, then `</string>`. */
  function MatchAt(s: string): (r: Option<nat>)
    ensures r.Some? <==> StringOpen <= s && CloseAfterSpaces(s[8..])
    ensures r.Some? ==> 17 <= r.value <= |s|
  {
    if StringOpen <= s && CloseAfterSpaces(s[8..]) then Some(17 + LeadingSpaces(s[8..])) else None
  }

  /** A match is `<string>`, whitespace only, then `</string>`. */
  lemma MatchShape(s: string)
    requires MatchAt(s).Some?
    ensures var n := MatchAt(s).value;
            AllSpace(s[8..n - 9]) && s[..8] == StringOpen && s[n - 9..n] == StringClose
  {
    var w := LeadingSpaces(s[8..]);
    assert s[8..][..w] == s[8..8 + w];
    assert s[8..][w..][..9] == s[8 + w..17 + w];
  }

  /** The global replace: scanning left to right, each match becomes
      `<string></string>` and the scan resumes after it. */
  function Normalize(s: string): (r: string)
    ensures |r| <= |s|
    ensures |s| > 0 ==> |r| > 0 && r[0] == s[0]
    ensures '<' !in s ==> r == s
    decreases |s|
  {
    if |s| == 0 then ""
    else
      match MatchAt(s)
      case Some(n) => EmptyString + Normalize(s[n..])
      case None =>
        assert '<' !in s ==> '<' !in s[1..];
        HeadTail(s);
        [s[0]] + Normalize(s[1..])
  }

  /** Every match of the scan is `<string></string>` already. */
  predicate Clean(t: string)
    decreases |t|
  {
    if |t| == 0 then true
    else
      match MatchAt(t)
      case Some(n) => n == 17 && Clean(t[17..])
      case None => Clean(t[1..])
  }

  /** The rewrite leaves a text unchanged exactly when it is clean. */
  lemma {:induction false} FixpointIffClean(t: string)
    ensures Normalize(t) == t <==> Clean(t)
    decreases |t|
  {
    if |t| > 0 {
      match MatchAt(t)
      case Some(n) =>
        FixStepMatch(t, n);
        if n == 17 {
          FixpointIffClean(t[17..]);
        }
      case None =>
        FixStepNoMatch(t);
        FixpointIffClean(t[1..]);
    }
  }

  lemma FixStepMatch(t: string, n: nat)
    requires MatchAt(t) == Some(n)
    ensures Normalize(t) == t <==> n == 17 && Normalize(t[17..]) == t[17..]
  {
    if n == 17 {
      MatchShape(t);
      assert t[..17] == t[..8] + t[8..17] == EmptyString;
      assert t == t[..17] + t[17..];
      if Normalize(t) == t {
        assert Normalize(t)[17..] == Normalize(t[17..]);
      }
    } else {
      assert |Normalize(t)| <= 17 + |t| - n;
    }
  }

  lemma FixStepNoMatch(t: string)
    requires |t| > 0 && MatchAt(t).None?
    ensures Normalize(t) == t <==> Normalize(t[1..]) == t[1..]
  {
    NormalizeNoMatch(t);
    TailCancel(Normalize(t), t, Normalize(t[1..]));
  }

  lemma NormalizeNoMatch(t: string)
    requires |t| > 0 && MatchAt(t).None?
    ensures Normalize(t) == [t[0]] + Normalize(t[1..])
  {
  }

  lemma {:induction false} LeadingSpacesOf(w: string, v: string)
    requires AllSpace(w) && (|v| == 0 || !IsJsSpace(v[0]))
    ensures LeadingSpaces(w + v) == |w|
    decreases |w|
  {
    if |w| > 0 {
      assert (w + v)[0] == w[0] && (w + v)[1..] == w[1..] + v;
      LeadingSpacesOf(w[1..], v);
    } else {
      assert w + v == v;
    }
  }

  /** Text without '<' passes through the rewrite unchanged. */
  lemma {:induction false} NormalizeCopies(p: string, y: string)
    requires '<' !in p
    ensures Normalize(p + y) == p + Normalize(y)
    decreases |p|
  {
    if |p| > 0 {
      var s := p + y;
      assert s[0] == p[0] && s[1..] == p[1..] + y;
      assert MatchAt(s).None?;
      NormalizeCopies(p[1..], y);
      assert p == [p[0]] + p[1..];
    } else {
      assert p + y == y;
    }
  }


  /** The rewrite neither creates nor destroys a '<'-free prefix. */
  lemma {:induction false} NormalizeKeepsPrefix(p: string, z: string)
    requires '<' !in p
    ensures p <= Normalize(z) <==> p <= z
    decreases |z|
  {
    if |p| > 0 && |z| > 0 {
      match MatchAt(z)
      case Some(n) =>
        assert z[0] == '<' && Normalize(z)[0] == '<';
      case None =>
        assert p[0] != '<';
        NormalizeKeepsPrefix(p[1..], z[1..]);
        var nz := Normalize(z);
        assert nz == [z[0]] + Normalize(z[1..]);
        PrefixOfCons(p, z[0], Normalize(z[1..]), nz);
        HeadTail(z);
        PrefixOfCons(p, z[0], z[1..], z);
    }
  }

  /** `</string>` at the front survives the rewrite, and appears only where
      it was. */
  lemma CloseKept(r: string)
    ensures StringClose <= Normalize(r) <==> StringClose <= r
  {
    if |r| > 0 {
      CloseSplit(r);
      CloseSplit(Normalize(r));
      match MatchAt(r)
      case Some(n) =>
        EmptyStringMatches(Normalize(r[n..]));
        assert r[1] == 's' && Normalize(r)[1] == 's';
      case None =>
        NormalizeKeepsPrefix("/string>", r[1..]);
        assert Normalize(r)[0] == r[0] && Normalize(r)[1..] == Normalize(r[1..]);
    }
  }

  lemma CloseSplit(x: string)
    ensures StringClose <= x <==> |x| > 0 && x[0] == '<' && "/string>" <= x[1..]
  {
    if |x| > 0 {
      assert StringClose == "<" + "/string>";
    }
  }

  /** The rewrite does not change whether whitespace and then `</string>`
      begin the text. */
  lemma CloseAfterSpacesKept(z: string)
    ensures CloseAfterSpaces(Normalize(z)) <==> CloseAfterSpaces(z)
  {
    var w := LeadingSpaces(z);
    var ws, r := z[..w], z[w..];
    assert z == ws + r;
    assert '<' !in ws by { assert !IsJsSpace('<'); }
    NormalizeCopies(ws, r);
    LeadingSpacesOf(ws, Normalize(r));
    assert Normalize(z)[w..] == Normalize(r);
    CloseKept(r);
  }

  /** The text `<string></string>` is a match of length 17 whatever follows. */
  lemma EmptyStringMatches(x: string)
    ensures MatchAt(EmptyString + x) == Some(17)
    ensures (EmptyString + x)[17..] == x
  {
    var s := EmptyString + x;
    assert s[8..] == StringClose + x;
    LeadingSpacesOf("", StringClose + x);
    assert "" + (StringClose + x) == StringClose + x;
  }

  /** Where the scan finds no match, none appears after the rewrite either. */
  lemma NoNewMatch(s: string)
    requires |s| > 0 && MatchAt(s).None?
    ensures MatchAt([s[0]] + Normalize(s[1..])).None?
  {
    if MatchAt([s[0]] + Normalize(s[1..])).Some? {
      OpenSurvivesOnlyWhereItWas(s);
      CloseAfterSpacesKept(s[8..]);
      assert false;
    }
  }

  /** An opening `<string>` in front of the rewritten tail was already in
      the text, and what follows it is the rewrite of what followed it. */
  lemma OpenSurvivesOnlyWhereItWas(s: string)
    requires |s| > 0
    requires StringOpen <= [s[0]] + Normalize(s[1..])
    ensures StringOpen <= s
    ensures ([s[0]] + Normalize(s[1..]))[8..] == Normalize(s[8..])
  {
    var y := Normalize(s[1..]);
    OpenOfCons(s[0], y);
    NormalizeKeepsPrefix("string>", s[1..]);
    HeadTail(s);
    OpenOfCons(s[0], s[1..]);
    var z := s[8..];
    assert s[1..] == "string>" + z;
    NormalizeCopies("string>", z);
  }

  /** `<string>` begins `[c] + y` exactly when `c` is '<' and `string>`
      begins `y`; the text after it is then `y` after its first seven
      characters. */
  lemma OpenOfCons(c: char, y: string)
    ensures StringOpen <= [c] + y <==> c == '<' && "string>" <= y
    ensures StringOpen <= [c] + y ==> ([c] + y)[8..] == y[7..]
  {
    var t := [c] + y;
    assert t[1..] == y;
    if |t| >= 8 {
      assert t[..8] == [c] + y[..7];
      assert StringOpen == ['<'] + "string>";
      if c == '<' {
        ConsCancel(t[..8], StringOpen, '<', y[..7], "string>");
      } else {
        assert t[..8][0] != StringOpen[0];
      }
    }
  }

  /** The rewrite's output is clean. */
  lemma {:induction false} NormalizeIsClean(s: string)
    ensures Clean(Normalize(s))
    decreases |s|
  {
    if |s| > 0 {
      match MatchAt(s)
      case Some(n) =>
        NormalizeIsClean(s[n..]);
        EmptyStringMatches(Normalize(s[n..]));
      case None =>
        NormalizeIsClean(s[1..]);
        NoNewMatch(s);
        var t := [s[0]] + Normalize(s[1..]);
        assert t[1..] == Normalize(s[1..]);
    }
  }

  /** The rewrite deletes whitespace and nothing else: with whitespace
      dropped, its output is its input, so every other character is kept,
      in order. */
  lemma {:induction false} NormalizeOnlyDeletesSpace(s: string)
    ensures Strip(Normalize(s)) == Strip(s)
    decreases |s|
  {
    if |s| > 0 {
      match MatchAt(s)
      case Some(n) =>
        NormalizeOnlyDeletesSpace(s[n..]);
        StripMatchStep(s, n);
      case None =>
        NormalizeOnlyDeletesSpace(s[1..]);
        StripCopyStep(s, Normalize(s[1..]));
    }
  }

  /** The step of `NormalizeOnlyDeletesSpace` at a match. */
  lemma StripMatchStep(s: string, n: nat)
    requires MatchAt(s) == Some(n) && Strip(Normalize(s[n..])) == Strip(s[n..])
    ensures Strip(Normalize(s)) == Strip(s)
  {
    CutAt(s, n);
    var head, rest, tail := s[..n], s[n..], Normalize(s[n..]);
    assert Normalize(s) == EmptyString + tail;
    MatchStripsToEmpty(s, n);
    StripReplaceParts(s, head, rest, EmptyString, tail);
  }

  /** The step of `NormalizeOnlyDeletesSpace` where the first character is
      copied. */
  lemma StripCopyStep(s: string, tail: string)
    requires |s| > 0 && MatchAt(s).None? && tail == Normalize(s[1..])
    requires Strip(tail) == Strip(s[1..])
    ensures Strip(Normalize(s)) == Strip(s)
  {
    var head, rest := [s[0]], s[1..];
    HeadTail(s);
    assert Normalize(s) == head + tail;
    StripAppend(head, tail);
    StripAppend(head, rest);
  }

  lemma MatchStripsToEmpty(s: string, n: nat)
    requires MatchAt(s) == Some(n)
    ensures Strip(s[..n]) == Strip(EmptyString)
  {
    MatchShape(s);
    CutThree(s, 8, n - 9, n);
    var open, w, close := s[..8], s[8..n - 9], s[n - 9..n];
    StripDropsSpaceRun(open, w, close);
    assert open + close == EmptyString;
  }

  /** The rewrite is idempotent. */
  lemma NormalizeIdempotent(s: string)
    ensures Normalize(Normalize(s)) == Normalize(s)
  {
    NormalizeIsClean(s);
    FixpointIffClean(Normalize(s));
  }

  /** `m` is the Info.plist dictionary after the merge: every key reads
      what the reference `FinalEntry` says. */
  ghost predicate IsMergeOf<V>(m: map<string, V>, info: map<string, V>, items: seq<MergeItem>, parse: PlistParser<V>) {
    forall k :: Get(m, k) == FinalEntry(info, items, parse, k)
  }

  /** `updateIosPlist` without the file I/O: the text written back, or
      `None` where parsing the file or a fragment throws. The text is the
      rebuilt merged dictionary with the `<string>` rewrite applied. */
  function UpdateIosPlist<V(!new)>(text: string, items: seq<MergeItem>, parse: PlistParser<V>, build: map<string, V> -> string): (r: Option<string>)
    ensures r.Some? <==> parse(text).Some? && forall i :: 0 <= i < |items| ==> parse(Fragment(items[i])).Some?
    ensures r.Some? ==> exists m :: IsMergeOf(m, parse(text).value, items, parse) && r.value == Normalize(build(m))
    ensures r.Some? ==> forall m :: IsMergeOf(m, parse(text).value, items, parse) ==> r.value == Normalize(build(m))
    ensures r.Some? ==> Normalize(r.value) == r.value
  {
    match parse(text)
    case None => None
    case Some(info) =>
      match MergePlist(info, items, parse)
      case None => None
      case Some(merged) =>
        assert IsMergeOf(merged, info, items, parse) by {
          forall k ensures Get(merged, k) == FinalEntry(info, items, parse, k) {
            MergeEntries(info, items, parse, k);
          }
        }
        assert forall m :: IsMergeOf(m, info, items, parse) ==> m == merged by {
          forall m | IsMergeOf(m, info, items, parse) ensures m == merged {
            GetDetermines(m, merged);
          }
        }
        NormalizeIdempotent(build(merged));
        Some(Normalize(build(merged)))
  }
}

=== FILE: seqs.dfy ===
/** Generic facts about sequences that the proofs elsewhere need in one
    step. They are stated over a type parameter so that using them never
    asks the solver to compare sequences of elements structurally.
 */
module Seqs {
  /** The head and tail of a non-empty sequence put back together. */
  lemma HeadTail<T>(t: seq<T>)
    requires |t| > 0
    ensures t == [t[0]] + t[1..]
  {
  }

  /** A sequence is its prefix and suffix at any cut. */
  lemma CutAt<T>(t: seq<T>, n: nat)
    requires n <= |t|
    ensures t == t[..n] + t[n..]
  {
  }

  /** A prefix cut into three consecutive parts. */
  lemma CutThree<T>(t: seq<T>, i: nat, j: nat, n: nat)
    requires i <= j <= n <= |t|
    ensures t[..n] == t[..i] + t[i..j] + t[j..n]
  {
  }

  /** A sequence with head `k` and tail `ks` is `[k] + ks`. */
  lemma ConsOfHeadTail<T>(k: T, ks: seq<T>, all: seq<T>)
    requires |all| > 0 && all[0] == k && all[1..] == ks
    ensures [k] + ks == all
  {
  }

  /** Head and tail of a concatenation whose first part is non-empty. */
  lemma ConcatHeadTail<T>(a: seq<T>, b: seq<T>)
    requires |a| > 0
    ensures (a + b)[0] == a[0] && (a + b)[1..] == a[1..] + b
  {
  }

  /** A non-empty prefix of `[a] + t` starts with `a` and goes on with a
      prefix of `t`. */
  lemma PrefixOfCons<T>(p: seq<T>, a: T, t: seq<T>, whole: seq<T>)
    requires |p| > 0 && whole == [a] + t
    ensures p <= whole <==> p[0] == a && p[1..] <= t
  {
    if p[0] == a && p[1..] <= t {
      assert p == [a] + p[1..];
    }
  }

  /** Lists with the same head are equal exactly when their tails are. */
  lemma ConsCancel<T>(a: seq<T>, b: seq<T>, c: T, x: seq<T>, y: seq<T>)
    requires a == [c] + x && b == [c] + y
    ensures a == b <==> x == y
  {
    if a == b {
      assert x == a[1..] && y == b[1..];
    }
  }

  /** A list built on the head of `t` equals `t` exactly when its tail
      equals the tail of `t`. */
  lemma TailCancel<T>(a: seq<T>, t: seq<T>, x: seq<T>)
    requires |t| > 0 && a == [t[0]] + x
    ensures a == t <==> x == t[1..]
  {
    HeadTail(t);
    ConsCancel(a, t, t[0], x, t[1..]);
  }

  /** Regrouping of appended lists, stated on plain variables so that the
      callers' list expressions stay folded. */
  lemma Regroup<T>(whole: seq<T>, front: seq<T>, a: seq<T>, h: seq<T>, b: seq<T>, tail: seq<T>)
    requires whole == front + b && front == a + h && tail == h + b
    ensures whole == a + tail
  {
  }

  /** Appending to a list that started empty. */
  lemma AppendAfterEmpty<T>(whole: seq<T>, front: seq<T>, empty: seq<T>, a: seq<T>, b: seq<T>)
    requires whole == front + b && front == empty + a && empty == []
    ensures whole == a + b
  {
  }

  /** `whole == h + rest` with `rest` split as `mid + b`, regrouped around
      `part == h + mid`. */
  lemma Reassociate<T>(whole: seq<T>, part: seq<T>, h: seq<T>, rest: seq<T>, mid: seq<T>, b: seq<T>)
    requires whole == h + rest && rest == mid + b && part == h + mid
    ensures whole == part + b
  {
  }
}

=== FILE: wrappers.dfy ===
/** Failure-carrying datatypes shared by the whole model.

    `Option` stands for a JavaScript value that may be `undefined`;
    `Result` stands for an operation that may throw.
 */
module Wrappers {

  datatype Option<+T> = None | Some(value: T) {

    /** The encapsulated value, or `default` when there is none. */
    function GetOr(default: T): T {
      match this
      case Some(v) => v
      case None => default
    }
  }

  datatype Result<+T, +E> = Ok(value: T) | Err(error: E) {

    predicate IsFailure() {
      Err?
    }

    function PropagateFailure<U>(): Result<U, E>
      requires Err?
    {
      Err(error)
    }

    function Extract(): T
      requires Ok?
    {
      value
    }
  }

  /** Reading a key of a string map the way JavaScript reads an object property:
      a missing key reads as `undefined`. */
  function Get<K, V>(m: map<K, V>, k: K): (r: Option<V>)
    ensures r.Some? <==> k in m
    ensures r.Some? ==> r.value == m[k]
  {
    if k in m then Some(m[k]) else None
  }

  /** A map is determined by what it reads under every key. */
  lemma GetDetermines<K, V>(a: map<K, V>, b: map<K, V>)
    requires forall k :: Get(a, k) == Get(b, k)
    ensures a == b
  {
    assert forall k :: k in a <==> k in b by {
      forall k ensures k in a <==> k in b {
        assert Get(a, k) == Get(b, k);
      }
    }
    forall k | k in a ensures a[k] == b[k] {
      assert Get(a, k) == Get(b, k);
    }
  }
}

=== FILE: www.dfy ===
/** The platform paths of hooks/utils.js (`getPlatformVersion`,
    `getPlatformPath`, `getWwwPath`). Segments are joined with '/'; the
    normalisation `path.join` also performs is not modelled.
 */
module Platforms {
  import opened Wrappers
  import opened JsStrings

  const PlatformsDir: string := "platforms"
  const ModernAndroidWww: string := "app/src/main/assets/www"
  const LegacyAndroidWww: string := "assets/www"
  const IosWww: string := "www"

  /** The version string from which the Android platform keeps its web
      assets under `app/src/main`. */
  const ModernAndroidVersion: string := "7"

  function Join(a: string, b: string): (r: string)
    ensures |r| == |a| + 1 + |b|
    ensures r[..|a|] == a && r[|a|] == '/' && r[|a| + 1..] == b
  {
    a + "/" + b
  }

  /** `getPlatformVersion`: the entry of `platforms/platforms.json` for the
      platform, `undefined` when the file has none. The file's contents are
      a parameter. */
  function PlatformVersion(versions: map<string, string>, platform: string): (r: Option<string>)
    ensures r.Some? <==> platform in versions
    ensures r.Some? ==> r.value == versions[platform]
  {
    Get(versions, platform)
  }

  /** `getPlatformPath`: `<projectRoot>/platforms/<platform>`. */
  function PlatformPath(projectRoot: string, platform: string): (r: string)
    ensures |r| == |projectRoot| + |PlatformsDir| + 2 + |platform|
    ensures r[..|projectRoot|] == projectRoot
    ensures r[|projectRoot|..|projectRoot| + |PlatformsDir| + 2] == "/" + PlatformsDir + "/"
    ensures r[|r| - |platform|..] == platform
  {
    Join(Join(projectRoot, PlatformsDir), platform)
  }

  /** `platformVersion >= "7"` with JavaScript's comparison: string order
      for a string, false for `undefined`. */
  predicate ModernAndroid(version: Option<string>) {
    version.Some? && LexAtLeast(version.value, ModernAndroidVersion)
  }

  /** The `wwwfolder` of `getWwwPath`; `None` where it stays `undefined`
      (any platform other than android and ios), on which `path.join`
      throws. */
  function WwwFolder(platform: string, version: Option<string>): Option<string> {
    if platform == "android" then
      Some(if ModernAndroid(version) then ModernAndroidWww else LegacyAndroidWww)
    else if platform == "ios" then Some(IosWww)
    else None
  }

  /** `getWwwPath`: the platform path followed by the www folder; the
      version is read only for android. */
  function WwwPath(projectRoot: string, platform: string, versions: map<string, string>): (r: Option<string>)
    ensures r.Some? <==> platform == "android" || platform == "ios"
  {
    var version := if platform == "android" then PlatformVersion(versions, platform) else None;
    match WwwFolder(platform, version)
    case None => None
    case Some(folder) => Some(Join(PlatformPath(projectRoot, platform), folder))
  }

  /** The version test only looks at the first character: Android 7, 8
      and 9 use the modern layout, and so does any version whose first
      character sorts at or after '7'. */
  lemma ModernIffFirstChar(v: string)
    ensures ModernAndroid(Some(v)) <==> |v| > 0 && v[0] >= '7'
  {
    if |v| > 0 && v[0] == '7' {
      assert !LexLess(v[1..], "7"[1..]);
    }
  }

  /** String comparison makes Android 10 and later look older than 7: the
      legacy folder is chosen for them. */
  lemma DoubleDigitAndroidIsLegacy(projectRoot: string, versions: map<string, string>, v: string)
    requires PlatformVersion(versions, "android") == Some(v)
    requires |v| > 0 && '1' <= v[0] < '7'
    ensures WwwPath(projectRoot, "android", versions) ==
              Some(projectRoot + "/platforms/android/" + LegacyAndroidWww)
  {
    ModernIffFirstChar(v);
    assert Join(Join(projectRoot, PlatformsDir), "android") + "/" + LegacyAndroidWww ==
           projectRoot + "/platforms/android/" + LegacyAndroidWww;
  }

  /** The two concrete versions the layout change sits between. */
  lemma VersionExamples()
    ensures !ModernAndroid(Some("10.0.0"))
    ensures ModernAndroid(Some("7.1.4"))
    ensures !ModernAndroid(Some("6.4.0"))
    ensures !ModernAndroid(None)
  {
    ModernIffFirstChar("10.0.0");
    ModernIffFirstChar("7.1.4");
    ModernIffFirstChar("6.4.0");
  }

  /** The iOS www path does not depend on the recorded platform versions:
      it is always `<projectRoot>/platforms/ios/www`. */
  lemma IosWwwPathFixed(projectRoot: string, versions: map<string, string>)
    ensures WwwPath(projectRoot, "ios", versions) == Some(projectRoot + "/platforms/ios/www")
  {
    var dir := Join(projectRoot, PlatformsDir);
    assert dir == projectRoot + "/platforms";
    var platform := Join(dir, "ios");
    assert platform == projectRoot + "/platforms/ios";
    assert Join(platform, IosWww) == projectRoot + "/platforms/ios/www";
  }

  /** Android and iOS never share a www path, whatever versions each run
      reads: the two paths differ in length. */
  lemma AndroidAndIosApart(projectRoot: string, androidVersions: map<string, string>, iosVersions: map<string, string>)
    ensures WwwPath(projectRoot, "android", androidVersions) != WwwPath(projectRoot, "ios", iosVersions)
  {
    IosWwwPathFixed(projectRoot, iosVersions);
  }
}

=== FILE: xmlstring.dfy ===
/** `eltreeToXmlString` of hooks/utils.js: an element as the XML text handed
    to the plist parser. Attributes, ids and tails are never written, and a
    node with non-blank text is written as that text, trimmed, without its
    children.

    `Project` keeps exactly what the serialiser writes, as a `Frag`; the
    recursive-descent reader `ParseElem` reads a serialisation back, which
    shows that nothing else is lost.
 */
module XmlString {
  import opened Wrappers
  import opened Seqs
  import opened JsStrings
  import opened Elements

  function OpenTag(tag: string): string {
    "<" + tag + ">"
  }

  function CloseTag(tag: string): string {
    "</" + tag + ">"
  }

  /** `data.text && data.text.trim()`: the text is present and not blank. */
  predicate ShowsText(e: Element) {
    e.text.Some? && Nonblank(e.text.value)
  }

  /** `eltreeToXmlString(data)`. */
  function Serialise(e: Element): (r: string)
    ensures OpenTag(e.tag) <= r
    decreases e
  {
    OpenTag(e.tag) + (if ShowsText(e) then Trim(e.text.value) else SerialiseAll(e.children)) + CloseTag(e.tag)
  }

  /** Attributes, `_id` and `tail` are never written. */
  lemma AttributesNotWritten(e: Element, attrib: Attrs, id: nat, tail: Option<string>)
    ensures Serialise(e.(attrib := attrib, id := id, tail := tail)) == Serialise(e)
  {
  }

  /** Non-blank text is written trimmed, and the children are then not
      written at all. */
  lemma TextHidesChildren(e: Element, cs: seq<Element>)
    requires ShowsText(e)
    ensures Serialise(e) == OpenTag(e.tag) + Trim(e.text.value) + CloseTag(e.tag)
    ensures Serialise(e.(children := cs)) == Serialise(e)
  {
  }

  /** The children serialised one after the other. */
  function SerialiseAll(cs: seq<Element>): string
    decreases cs
  {
    if |cs| == 0 then "" else Serialise(cs[0]) + SerialiseAll(cs[1..])
  }

  /** What the serialisation of an element can show: a tag with its text, or
      a tag with its children. */
  datatype Frag = Leaf(tag: string, text: string) | Node(tag: string, kids: seq<Frag>)

  /** The part of an element the serialiser writes. */
  function Project(e: Element): Frag
    decreases e
  {
    if ShowsText(e) then Leaf(e.tag, Trim(e.text.value)) else Node(e.tag, ProjectAll(e.children))
  }

  function ProjectAll(cs: seq<Element>): (r: seq<Frag>)
    ensures |r| == |cs|
    ensures forall i :: 0 <= i < |cs| ==> r[i] == Project(cs[i])
    decreases cs
  {
    if |cs| == 0 then [] else [Project(cs[0])] + ProjectAll(cs[1..])
  }

  function Render(f: Frag): string
    decreases f
  {
    match f
    case Leaf(t, x) => OpenTag(t) + x + CloseTag(t)
    case Node(t, ks) => OpenTag(t) + RenderAll(ks) + CloseTag(t)
  }

  function RenderAll(ks: seq<Frag>): string
    decreases ks
  {
    if |ks| == 0 then "" else Render(ks[0]) + RenderAll(ks[1..])
  }

  /** A tag the reader can delimit: no '>' inside, and not starting with '/'
      (which would read as a closing tag). */
  predicate TagOk(t: string) {
    '>' !in t && (|t| == 0 || t[0] != '/')
  }

  /** A fragment whose rendering reads back unambiguously: text is non-empty
      and free of '<', tags are delimitable. */
  predicate WellFormed(f: Frag)
    decreases f
  {
    match f
    case Leaf(t, x) => TagOk(t) && |x| > 0 && '<' !in x
    case Node(t, ks) => TagOk(t) && forall k :: k in ks ==> WellFormed(k)
  }

  /** An element whose serialisation reads back: its tag is delimitable and
      the text it shows has no '<' (the serialiser does not escape), or it
      shows children that are renderable themselves. */
  predicate Renderable(e: Element)
    decreases e
  {
    TagOk(e.tag)
    && if ShowsText(e) then '<' !in Trim(e.text.value) else forall c :: c in e.children ==> Renderable(c)
  }

  // The reader.

  /** `<tag>` at the front of `s`: the tag and what follows. */
  function ReadOpen(s: string): (r: Option<(string, string)>)
    ensures r.Some? ==> |r.value.1| < |s|
  {
    if |s| == 0 || s[0] != '<' then None
    else
      var n := IndexOfChar(s[1..], '>');
      if n == |s| - 1 then None else Some((s[1..n + 1], s[n + 2..]))
  }

  /** Text up to the next '<'. */
  function ReadText(s: string): (r: (string, string))
    ensures r.0 + r.1 == s
  {
    var m := IndexOfChar(s, '<');
    assert s[..m] + s[m..] == s;
    (s[..m], s[m..])
  }

  /** `</tag>` at the front of `s`: what follows it. */
  function ReadClose(tag: string, s: string): (r: Option<string>)
    ensures r.Some? ==> |r.value| < |s|
  {
    if CloseTag(tag) <= s then Some(s[|CloseTag(tag)|..]) else None
  }

  predicate AtClose(s: string) {
    |s| >= 2 && s[0] == '<' && s[1] == '/'
  }

  /** Reads one element from the front of `s`. */
  function ParseElem(s: string): (r: Option<(Frag, string)>)
    ensures r.Some? ==> |r.value.1| < |s|
    decreases |s|, 0
  {
    match ReadOpen(s)
    case None => None
    case Some((tag, body)) =>
      if |body| > 0 && body[0] != '<' then
        var (text, after) := ReadText(body);
        match ReadClose(tag, after)
        case None => None
        case Some(rest) => Some((Leaf(tag, text), rest))
      else
        match ParseKids(body)
        case None => None
        case Some((kids, after)) =>
          match ReadClose(tag, after)
          case None => None
          case Some(rest) => Some((Node(tag, kids), rest))
  }

  /** Reads elements from the front of `s` up to a closing tag. */
  function ParseKids(s: string): (r: Option<(seq<Frag>, string)>)
    ensures r.Some? ==> |r.value.1| <= |s|
    decreases |s|, 1
  {
    if AtClose(s) then Some(([], s))
    else
      match ParseElem(s)
      case None => None
      case Some((k, rest)) =>
        match ParseKids(rest)
        case None => None
        case Some((ks, after)) => Some(([k] + ks, after))
  }

  lemma ReadOpenTag(t: string, body: string)
    requires '>' !in t
    ensures ReadOpen(OpenTag(t) + body) == Some((t, body))
  {
    var s := OpenTag(t) + body;
    assert s[1..] == t + (">" + body);
    IndexOfCharSkip(t, ">" + body, '>');
    assert s[1..|t| + 1] == t;
    assert s[|t| + 2..] == body;
  }

  lemma ReadTextStops(x: string, rest: string)
    requires '<' !in x && |rest| > 0 && rest[0] == '<'
    ensures ReadText(x + rest) == (x, rest)
  {
    IndexOfCharSkip(x, rest, '<');
    assert (x + rest)[..|x|] == x;
    assert (x + rest)[|x|..] == rest;
  }

  lemma ReadCloseTag(t: string, rest: string)
    ensures ReadClose(t, CloseTag(t) + rest) == Some(rest)
  {
    assert (CloseTag(t) + rest)[|CloseTag(t)|..] == rest;
  }

  lemma RenderStartsOpen(f: Frag)
    ensures |Render(f)| >= 2 && Render(f)[0] == '<'
    ensures Render(f)[1] == if |f.tag| > 0 then f.tag[0] else '>'
  {
  }

  /** A well-formed fragment reads back from its rendering, whatever
      follows it. */
  lemma {:induction false} RenderParses(f: Frag, rest: string)
    requires WellFormed(f)
    ensures ParseElem(Render(f) + rest) == Some((f, rest))
    decreases f
  {
    match f
    case Leaf(t, x) =>
      var body := x + (CloseTag(t) + rest);
      assert Render(f) + rest == OpenTag(t) + body;
      ReadOpenTag(t, body);
      assert body[0] == x[0];
      ReadTextStops(x, CloseTag(t) + rest);
      ReadCloseTag(t, rest);
    case Node(t, ks) =>
      var body := RenderAll(ks) + (CloseTag(t) + rest);
      assert Render(f) + rest == OpenTag(t) + body;
      ReadOpenTag(t, body);
      if |ks| > 0 {
        RenderStartsOpen(ks[0]);
        assert body[0] == Render(ks[0])[0];
      }
      RenderAllParses(ks, CloseTag(t) + rest);
      ReadCloseTag(t, rest);
  }

  lemma {:induction false} RenderAllParses(ks: seq<Frag>, rest: string)
    requires forall k :: k in ks ==> WellFormed(k)
    requires AtClose(rest)
    ensures ParseKids(RenderAll(ks) + rest) == Some((ks, rest))
    decreases ks
  {
    if |ks| == 0 {
      assert RenderAll(ks) + rest == rest;
    } else {
      var tail := RenderAll(ks[1..]) + rest;
      RenderAllCons(ks, rest);
      RenderNotClose(ks[0], tail);
      assert ks[0] in ks;
      RenderParses(ks[0], tail);
      SuffixWellFormed(ks);
      RenderAllParses(ks[1..], rest);
      ParseKidsCons(Render(ks[0]) + tail, ks[0], tail, ks[1..], rest, ks);
    }
  }

  lemma RenderAllCons(ks: seq<Frag>, rest: string)
    requires |ks| > 0
    ensures RenderAll(ks) + rest == Render(ks[0]) + (RenderAll(ks[1..]) + rest)
  {
  }

  lemma SuffixWellFormed(ks: seq<Frag>)
    requires |ks| > 0 && forall k :: k in ks ==> WellFormed(k)
    ensures forall k :: k in ks[1..] ==> WellFormed(k)
  {
    assert forall k :: k in ks[1..] ==> k in ks;
  }

  lemma RenderNotClose(f: Frag, tail: string)
    requires WellFormed(f)
    ensures !AtClose(Render(f) + tail)
  {
    RenderStartsOpen(f);
    var s := Render(f) + tail;
    assert s[0] == Render(f)[0] && s[1] == Render(f)[1];
  }

  /** One step of `ParseKids` away from a closing tag. */
  lemma ParseKidsCons(s: string, k: Frag, rest: string, ks: seq<Frag>, after: string, all: seq<Frag>)
    requires !AtClose(s)
    requires ParseElem(s) == Some((k, rest)) && ParseKids(rest) == Some((ks, after))
    requires |all| > 0 && all[0] == k && all[1..] == ks
    ensures ParseKids(s) == Some((all, after))
  {
    ConsOfHeadTail(k, ks, all);
  }

  /** The serialisation of an element is the rendering of its projection. */
  lemma {:induction false} SerialiseRenders(e: Element)
    ensures Serialise(e) == Render(Project(e))
    decreases e
  {
    if !ShowsText(e) {
      SerialiseAllRenders(e.children);
    }
  }

  lemma {:induction false} SerialiseAllRenders(cs: seq<Element>)
    ensures SerialiseAll(cs) == RenderAll(ProjectAll(cs))
    decreases cs
  {
    if |cs| > 0 {
      SerialiseRenders(cs[0]);
      SerialiseAllRenders(cs[1..]);
      assert ProjectAll(cs)[1..] == ProjectAll(cs[1..]);
    }
  }

  lemma {:induction false} RenderableWellFormed(e: Element)
    requires Renderable(e)
    ensures WellFormed(Project(e))
    decreases e
  {
    if !ShowsText(e) {
      forall k | k in ProjectAll(e.children) ensures WellFormed(k) {
        var i :| 0 <= i < |e.children| && ProjectAll(e.children)[i] == k;
        assert e.children[i] in e.children;
        RenderableWellFormed(e.children[i]);
      }
    } else {
      assert |Trim(e.text.value)| > 0;
    }
  }

  /** Round trip: a renderable element's serialisation reads back as its
      projection, whatever text follows. */
  lemma SerialiseRoundTrip(e: Element, rest: string)
    requires Renderable(e)
    ensures ParseElem(Serialise(e) + rest) == Some((Project(e), rest))
  {
    SerialiseRenders(e);
    RenderableWellFormed(e);
    RenderParses(Project(e), rest);
  }

  /** Two renderable elements serialise alike exactly when they agree on
      their tags, shown (trimmed) texts and shown children: attributes,
      ids, tails, surrounding blanks and the children of a text node play no
      part. */
  lemma SerialiseInjective(e1: Element, e2: Element)
    requires Renderable(e1) && Renderable(e2)
    ensures Serialise(e1) == Serialise(e2) <==> Project(e1) == Project(e2)
  {
    SerialiseRoundTrip(e1, "");
    SerialiseRoundTrip(e2, "");
    assert Serialise(e1) + "" == Serialise(e1);
    assert Serialise(e2) + "" == Serialise(e2);
    SerialiseRenders(e1);
    SerialiseRenders(e2);
  }
}
